=== FILE: README.md ===
# NFT layer compositor — a Dafny model

This project models the trait-combination engine of an NFT art generator. The
engine lists a folder of images per trait layer and picks one element per layer
with weighted probabilities. It stacks the picks onto a canvas and rejects a
combination whose key was seen before. For each accepted edition it adds a
metadata record (hash, token id, timestamp, attributes, image URL) to a manifest.
The model also covers the small string helpers around the engine and the
earlier `index.js` prototype.

Modules, one per file:

- `Wrappers`: `Option` and `Result`.
- `Text`: the JavaScript string behaviour the code relies on:
  - `toString` of integers, with a parser proved to invert it;
  - `padStart`, `join` and `slice(0, end)`.
- `Surface`: a canvas, modelled as the sequence of image paths painted onto it, in order.
- `Catalog`: `cleanName`, `getElements` and `layersSetup` of `utils/helpers.js`.
  A directory listing is an input: a map from path to the listed file names.
  A path missing from the map is one `readdir` fails on.
- `Selector`: `pickElementWithProbs`. It is specified by `Pick`, the least index
  whose running sum exceeds the draw, or 0.
- `Formats`: `getCurrentTime`, `getContentType`, and the data-URL prefix strip of `getImageBuffer`.
- `Engine`: the module-level state of `utils/helpers.js` (`metadata`,
  `attributes`, `hash`, `decodedHash`, `Exists`, plus the saved images) and
  `addAttributes`, `addMetadata`, `drawLayer` and `stackImageLayers`:
  - `State` and the functions `AttributesAdded`, `MetadataAdded`, `LayerDrawn`,
    `DrawAll`, `Iterate` and `Run` give the state as a value and say what each
    operation makes of it;
  - the class `Generator` holds the same state in fields, and each of its methods
    is proved to follow those functions;
  - lemmas about `Run` state what a whole run does.
- `Prompt`: `getAIPrompt` and its module-level `imageAttributes`.
- `Prototype`: `index.js`. It uses 1-based ids, a uniform `floor(r * count)`
  pick and one shared canvas that is never cleared.

The environment is passed in:

- `Math.random()`: one `real` draw per pick. A run of `stackImageLayers` takes a
  sequence of rounds, one draw per layer per loop iteration.
- The Pinata upload: a function from edition to the returned hash.
- The clock: a function from edition to a date.
- Directory listings: the map described under `Catalog`.

Behaviours of the code worth knowing:

- The collision counter `noUnique` is re-declared in every iteration of
  `stackImageLayers`. It is therefore at most 1 at the bound check, and the
  "give up" `break` can never fire.
- An exhausted combination space still completes when there is at least one
  layer. After a collision the next draw is appended to the same accumulators,
  so each retry's key is longer than the last and is eventually new: a slot
  collides at most as many times as `Exists` has keys. The slot is then filled
  with the image of the last draw only, while its record carries the attributes
  of every draw since the last accepted one. Two slots can thus save the same
  image. Only a run with no layers can loop forever: a draw then adds no ids, so
  the key changes only when a record is added, which clears it to the empty key.
  Once the current key is known, every iteration collides and the source never
  ends.
- `layersSetup` accepts a layer whose directory lists no files. The failure comes
  later, when `drawLayer` reads `fileName` of the picked element, which the empty
  layer does not have.
- The accumulators are shared module state. They are cleared only by
  `addMetadata`, so after a collision the retry appends a second draw to the same
  `attributes` and `hash`.
- The record's `hash` field is `hash.join("")`, which loses the separators. Two
  different draws can get the same record hash even though their `Exists` keys
  (`hash.toString()`) differ.

## Model

| member | source | states |
|---|---|---|
| Catalog.CleanName | utils/helpers.js:115-118 | the name is the file name without its last four characters, a prefix of it, and empty for names shorter than four |
| Catalog.Elements | utils/helpers.js:127-133 | the element at listing position k has id k and file name equal to the k-th entry, and its name plus the entry's last four characters gives back the entry ("" when shorter) |
| Catalog.LayersSetup | utils/helpers.js:140-160 | succeeds exactly when every layer directory can be listed. Layer i has id i, the configured name, `number` and `probs` unchanged, the format's size, the elements of its directory and the location `<extracted>/<parent>/<name>/`. Otherwise it fails naming the first directory that cannot be listed |
| Selector.PickFrom | utils/helpers.js:199-209 | when some index from k on has a running sum above the draw, the result is the least such index. Otherwise it is 0 |
| Selector.PickElementWithProbs | utils/helpers.js:199-209 | the accumulating loop returns exactly `Pick(probs, r)`, which is 0 or an index of `probs` |
| Selector.PickIsLeastHit | utils/helpers.js:202-206 | some index hits exactly when the picked one does, and no index before the pick hits |
| Selector.PickUnderSumFallsBack | utils/helpers.js:202-208 | with non-negative weights whose total is at most the draw, the pick falls back to 0 |
| Selector.PickZeroOne | utils/helpers.js:199-209 | weights [0, 1] pick index 1 for every draw in [0, 1) |
| Selector.PickOneZero | utils/helpers.js:199-209 | weights [1, 0] pick index 0 for every draw in [0, 1) |
| Selector.PickEmpty | utils/helpers.js:202-208 | with no weights the pick is 0 |
| Formats.Pad2RoundTrip | utils/helpers.js:26-30 | a field below 100 renders as exactly two digits that parse back to the field |
| Formats.CurrentTimeLayout | utils/helpers.js:23-34 | for a four-digit year the timestamp has 19 characters and underscores at positions 4, 7, 10, 13 and 16. Its fields parse back to the year, month index + 1, day, hours, minutes and seconds |
| Formats.GetContentType | utils/helpers.js:36-42 | a non-empty `content-type` wins. Otherwise the result is `Content-Type`, and it is missing exactly when neither header gives a value |
| Formats.StripDataUrlPrefix | utils/helpers.js:406-408 | the PNG data-URL prefix is removed when the text starts with it, and the text is unchanged otherwise |
| Formats.StripUndoesPrefix | utils/helpers.js:408 | stripping undoes prefixing, and only one copy of the prefix is removed |
| Surface.Canvas.Paint | utils/helpers.js:220 | compositing an image appends its path to the canvas |
| Engine.RecordHashIsNotInjective | utils/helpers.js:169 | the draws [0,1,1,13] and [0,11,1,3] have different `Exists` keys but the same record hash "01113" |
| Engine.AddAttributesKeepsAligned | utils/helpers.js:186-196 | `addAttributes` keeps the k-th attribute, the k-th decoded entry and the k-th id pair of `hash` describing the same draw, and leaves the manifest and `Exists` alone |
| Engine.Generator.AddAttributes | utils/helpers.js:186-196 | the new state is the old one with one attribute `{element id, layer name, element name}`, the two ids (layer, then element) and one decoded entry appended |
| Engine.AddMetadataClears | utils/helpers.js:163-182 | `addMetadata` appends one record (hash = the ids joined with no separator, token id = edition, the given date, the accumulated attributes, image = IPFS base + "/" + url, old records kept) and empties the accumulators. `Exists` and the images stay as they were |
| Engine.Generator.AddMetadata | utils/helpers.js:163-182 | the new state is `MetadataAdded` of the old one, with the date from the clock and the URL from the upload |
| Engine.Generator.DrawLayer | utils/helpers.js:211-221 | picks by the weights. An index the layer has adds that element's attributes and paints `location + fileName`. An index it lacks fails before anything changes |
| Engine.DrawAll | utils/helpers.js:231-234 | drawing all layers leaves the manifest, `Exists` and the images unchanged, and a complete draw paints one path per layer (what it leaves in the accumulators: `DrawAllAppends`) |
| Engine.DrawAllAppends | utils/helpers.js:231-234 | every draw, complete or stopped at a missing element, keeps what the accumulators and the canvas held: a failed draw leaves the picks of the layers before it in place. A complete draw appends exactly one attribute, two ids, one decoded entry and one painted path per layer |
| Engine.DrawAllContents | utils/helpers.js:211-234 | in a complete draw, for each layer k with pick e: attribute number k is `{e.id, layer name, e.name}`, ids 2k and 2k + 1 are the layer id and e.id, decoded entry k pairs them, and painted path k is `location + e.fileName` (`LayerContributed`) |
| Engine.DrawAllContributes | utils/helpers.js:211-234 | the per-layer statement of `DrawAllContents`, by induction over the layers |
| Engine.Generator.DrawLayers | utils/helpers.js:231-234 | the inner loop draws layer after layer, as `DrawAll` says, stopping at the first failure |
| Engine.Iterate | utils/helpers.js:229-245 | a collision or failure leaves the slot, `Exists`, the manifest and the images. An accepted key was new, is the only key added, gets one record numbered j and the image of slot j, and moves to slot j + 1 |
| Engine.IterateRecordsTheDraw | utils/helpers.js:229-245 | an accepted key is the key of that iteration's draw; slot j's image is that draw's canvas; the new record carries that draw's attributes and joined ids. A collision keeps the draw in the accumulators, and its key was already in `Exists`. A failure keeps the partial draw in the accumulators and reports the draw's error |
| Engine.KeyGrows | utils/helpers.js:235 | extending the id list makes `hash.toString()` strictly longer |
| Engine.CollisionLengthensKey | utils/helpers.js:229-239 | with at least one layer, a collision leaves a key strictly longer than the one the accumulators held, `Exists` unchanged, and that key already in `Exists` |
| Engine.RetriedKeysGrow | utils/helpers.js:226-245 | the keys of consecutive collisions at one slot are pairwise distinct, all in `Exists`, and longer than the starting key |
| Engine.RetriesBounded | utils/helpers.js:226-245 | with at least one layer, a slot collides at most as many times as `Exists` has keys before a draw is accepted or fails |
| Engine.ExhaustedSpaceCompletes | utils/helpers.js:224-247 | one layer with one element and two editions: the run completes; the second record carries two attributes; both saved images show the same element |
| Engine.Generator.DrawEdition | utils/helpers.js:229-245 | one loop iteration up to the collision check does what `Iterate` says |
| Engine.RunAcceptsFreshKeys | utils/helpers.js:235-244 | every key a run accepts was absent from `Exists` beforehand, and no key is accepted twice |
| Engine.NoRepeatsIsPairwiseDistinct | utils/helpers.js:236-242 | the accepted keys having no repeats means they are pairwise distinct |
| Engine.RunGrowsExists | utils/helpers.js:236-244 | `Exists` only grows, and only by the keys the run accepts |
| Engine.RunAppendsRecords | utils/helpers.js:224-247 | the manifest keeps its old records and gains one record per accepted key, numbered from the starting slot on. A completed run filled every slot up to `edition` |
| Engine.RunKeepsEarlierImages | utils/helpers.js:241 | the image of a slot below the starting one is never rewritten |
| Engine.RetryAccepts | utils/helpers.js:236-239 | a collision followed by a fresh key accepts the second draw for the same slot |
| Engine.RetryAppendsSecondDraw | utils/helpers.js:229-245 | after a collision and an accepted retry, slot j's record carries the attributes and ids of both draws (2 × layers attributes). The saved image shows only the second draw |
| Engine.NoLayersNeverCompletes | utils/helpers.js:226-239 | with no layers and the key of the current accumulators already known, every iteration collides and the run never completes |
| Engine.Generator.StackImageLayers | utils/helpers.js:224-252 | the loop ends in the state and status `Run` gives, and returns the manifest on completion. The give-up branch is proved unreachable |
| Prompt.SegmentsMatchTraits | utils/helpers.js:290-299 | each layer's prompt segment is its recorded value followed by its recorded trait name |
| Prompt.PromptLength | utils/helpers.js:288-303 | the prompt is the head, the segments, and exactly one " and " between neighbours |
| Prompt.PromptBuilder.GetAIPrompt | utils/helpers.js:287-306 | the prompt is "Generate an image of <main> that has " followed by the segments joined by " and ". `imageAttributes` holds one `{trait_type, value}` per layer, in order, with `undefined` for a missing option |
| Prototype.CleanName | index.js:20-22 | `slice(0, itr)`: a negative itr drops exactly the last -itr characters, and a non-negative one keeps the first itr |
| Prototype.GetElements | index.js:30-40 | each element equals the one `utils/helpers.js` builds, except that its id is k + 1 |
| Prototype.LayersSetup | index.js:42-53 | set up exactly when every `./layers/<name>` directory can be listed. Layer k has id k + 1, its name, location `./layers/<name>`, its order label, the format's size and its directory's elements |
| Prototype.PickIndexInRange | index.js:56-57 | `floor(r * count)` is an index of a non-empty layer for r in [0, 1) |
| Prototype.BuildPathInjective | index.js:68 | different editions write different `./build/<edition>` files |
| Prototype.LayerDrawn | index.js:55-70 | an index outside the layer changes nothing |
| Prototype.Studio.DrawLayer | index.js:55-70 | paints the picked element onto the shared canvas and writes the whole canvas to `./build/<edition>` |
| Prototype.EditionDrawnAppends | index.js:76-78 | an edition adds one image per layer on top of the canvas and leaves its own file holding the whole canvas. No other file changes |
| Prototype.EditionDrawnContents | index.js:55-78 | image number k that an edition adds to the canvas is `<location>/<fileName>` of layer k's element at `floor(r * count)` for that layer's draw, in configuration order (`PickedPath`) |
| Prototype.AllDrawnContents | index.js:55-80 | on the final canvas, image k of edition i, at position i × layers + k above what the canvas held, is layer k's pick from edition i's draws |
| Prototype.AllDrawnGrows | index.js:73-80 | after `edition` editions the canvas holds one image per edition per layer, drawn on top of what it already held |
| Prototype.AllDrawnNeverClears | index.js:73-80 | the canvas is never cleared: edition i's file holds (i + 1) × layers images, those of every earlier edition included, and is a prefix of the final canvas |
| Prototype.Studio.StackImagesLayers | index.js:73-80 | a failed setup draws nothing. Otherwise every layer of every edition is drawn in order, as `AllDrawn` says |

## Left out

- Pixels: Jimp and node-canvas (`Jimp.create`, `Jimp.read`, `composite`, `loadImage`, `drawImage`, `writeAsync`, `toBuffer`) are opaque library calls. A canvas is the sequence of painted paths. A failure of `Jimp.read` or `writeAsync` is not modelled; the only draw failure modelled is reading `fileName` of a missing element.
- The filesystem: `setupSystem`, `createDirs`, the temp-directory map, `fs.readdir` and `writeFileSync`. A listing is the `dirs` input, and the JSON file written per record is not modelled.
- Pinata uploads (`pinataUploadFileWithRetry`), whose retry is unbounded. Each upload is an oracle from edition to hash, so a failing upload never returns and is not modelled.
- S3, DynamoDB and the HTTP helpers (`replaceImage`, `getImagePrompt`, `downloadImage`, `downloadAllImages`, `addImgUriToMetadata`, `getImagesBaseUri`, `getMetadataBaseUri`, `queryAiBot`, `updateNftStatus`): network I/O with no local invariant.
- `generateImages` and `generateImagesS3` beyond `getAIPrompt`: loops around the AI call and file writes.
- `Math.random` and IEEE rounding: each draw is a `real` parameter and the running sum is exact, so rounding in the float sum is not captured.
- The clock: `new Date()` is a function from edition to a date, read once per record.
- Base64 decoding in `getImageBuffer`. Only the anchored prefix strip is modelled.
- Engine.Run: the source keeps drawing until every slot is filled. The model spends one round of draws per loop iteration and stops with `OutOfRounds` when the rounds given to it run out; that status means only that more draws were needed. With at least one layer a slot is filled, or the run fails, within one more round than `Exists` has keys (`RetriesBounded`); with no layers a draw adds no ids, so the key changes only when a record clears it to the empty key; once the current key is known the source never ends and the model stops with `OutOfRounds` (`NoLayersNeverCompletes`).
- Engine.Generator.StackImageLayers: the `catch` that wraps an error in a new message is modelled as the `Failed` status carrying the draw error.
- Prototype.Studio.StackImagesLayers: nothing in `index.js` is awaited. Neither the outer `for` loop nor the `forEach(async …)` waits for a draw, so draws of different layers and of different editions interleave. Every `loadImage` is issued before any image is painted, and paints and file writes follow in the order the loads finish. `./build/<i>` then holds the canvas as it was at the last draw of edition i to finish, over whatever other editions had painted. The model draws every layer of every edition in sequence, one schedule among these. A draw that throws (an empty layer) changes nothing and does not stop the others. The unhandled rejection of a failed `readdirSync` is modelled as drawing nothing.
- Prototype.EditionDrawnAppends, Prototype.AllDrawnNeverClears: they hold for that sequential schedule only. Under other schedules a build file can hold images of several editions in another order.
- Formats.GetContentType: `event.headers` itself is assumed present. A missing headers object would throw.
- Catalog.CleanName, Prototype.CleanName: a string is a sequence of Unicode characters, while JavaScript's `slice` counts UTF-16 code units. A file name whose last four code units include half of a character outside the Basic Multilingual Plane is cut differently: `slice(0, -4)` of "a.p😀" is "a", the model gives "".
- `config.js` is a data literal. Its `order` labels are carried but never used for stacking, as in the code.

=== FILE: catalog.dfy ===
/**
  The layer catalog of utils/helpers.js: element records built from a directory
  listing, and the layer records built from the configured layer list.
  A directory listing is an input: `dirs` maps a path to the file names that
  `readdir` returns for it, and a path outside `dirs` is one `readdir` fails on.
 */
module Catalog {
  import opened Wrappers
  import Text

  /** One selectable trait image: its 0-based position in the listing, its name and its file. */
  datatype Element = Element(id: nat, name: string, fileName: string)

  datatype Size = Size(width: int, height: int)

  /** One entry of the configured layer list: a name, a count and a weight per element. */
  datatype LayerInfo = LayerInfo(name: string, number: int, probs: seq<real>)

  datatype Layer = Layer(
    id: nat,
    name: string,
    location: string,
    elements: seq<Element>,
    size: Size,
    number: int,
    probs: seq<real>)

  datatype CatalogError = LayersSetupFailed(path: string)

  /** `cleanName`: the file name without its last four characters (the extension). */
  function CleanName(fileName: string): (name: string)
    ensures |fileName| >= 4 ==> |name| == |fileName| - 4
    ensures |fileName| < 4 ==> name == ""
    ensures name == fileName[..|name|]
  {
    Text.SliceTo(fileName, -4)
  }

  /** The `map` inside `getElements`: one element per listed file, in listing order. */
  function Elements(files: seq<string>): (es: seq<Element>)
    ensures |es| == |files|
    ensures forall k :: 0 <= k < |files| ==>
      es[k].id == k && es[k].fileName == files[k] &&
      (if |files[k]| >= 4 then es[k].name + files[k][|files[k]| - 4..] == files[k]
       else es[k].name == "")
  {
    seq(|files|, k requires 0 <= k < |files| => Element(k, CleanName(files[k]), files[k]))
  }

  /** The directory `getElements` lists for a layer. */
  function ElementsDir(extracted: string, parentFile: string, name: string): string
  {
    extracted + "/" + parentFile + "/" + name
  }

  /** The `location` a layer carries; it ends with a slash, unlike the listed directory. */
  function LayerLocation(extracted: string, parentFile: string, name: string): (loc: string)
    ensures loc == ElementsDir(extracted, parentFile, name) + "/"
  {
    extracted + "/" + parentFile + "/" + name + "/"
  }

  /** The record that `layersSetup` pushes for the i-th configured layer. */
  function LayerOf(i: nat, info: LayerInfo, extracted: string, parentFile: string, format: Size,
                   files: seq<string>): Layer
  {
    Layer(i, info.name, LayerLocation(extracted, parentFile, info.name), Elements(files),
          Size(format.width, format.height), info.number, info.probs)
  }

  /** Every configured layer's directory can be listed. */
  predicate AllListed(extracted: string, parentFile: string, infos: seq<LayerInfo>,
                      dirs: map<string, seq<string>>)
  {
    forall i :: 0 <= i < |infos| ==> ElementsDir(extracted, parentFile, infos[i].name) in dirs
  }

  /**
    `layersSetup`: builds the layers one by one, in configuration order. The first
    directory that cannot be listed aborts the whole setup with an error naming it.
   */
  method LayersSetup(extracted: string, parentFile: string, infos: seq<LayerInfo>, format: Size,
                     dirs: map<string, seq<string>>)
    returns (res: Result<seq<Layer>, CatalogError>)
    ensures res.Ok? <==> AllListed(extracted, parentFile, infos, dirs)
    ensures res.Ok? ==> |res.value| == |infos|
    ensures res.Ok? ==> forall i :: 0 <= i < |infos| ==>
      res.value[i].id == i && res.value[i].name == infos[i].name &&
      res.value[i].probs == infos[i].probs && res.value[i].number == infos[i].number &&
      res.value[i].size == format &&
      res.value[i].elements == Elements(dirs[ElementsDir(extracted, parentFile, infos[i].name)]) &&
      res.value[i].location == ElementsDir(extracted, parentFile, infos[i].name) + "/"
    ensures res.Err? ==> (exists i :: 0 <= i < |infos| &&
                            res.error == LayersSetupFailed(ElementsDir(extracted, parentFile, infos[i].name)) &&
                            res.error.path !in dirs &&
                            AllListed(extracted, parentFile, infos[..i], dirs))
  {
    var layers: seq<Layer> := [];
    var i := 0;
    while i < |infos|
      invariant 0 <= i <= |infos|
      invariant |layers| == i
      invariant AllListed(extracted, parentFile, infos[..i], dirs)
      invariant forall k :: 0 <= k < i ==>
        layers[k] == LayerOf(k, infos[k], extracted, parentFile, format,
                             dirs[ElementsDir(extracted, parentFile, infos[k].name)])
    {
      var dir := ElementsDir(extracted, parentFile, infos[i].name);
      if dir !in dirs {
        return Err(LayersSetupFailed(dir));
      }
      layers := layers + [LayerOf(i, infos[i], extracted, parentFile, format, dirs[dir])];
      assert infos[..i + 1] == infos[..i] + [infos[i]];
      i := i + 1;
    }
    assert infos[..i] == infos;
    return Ok(layers);
  }
}

=== FILE: engine.dfy ===
/**
  The per-edition bookkeeping of utils/helpers.js: the module-level `metadata`,
  `attributes`, `hash`, `decodedHash` and `Exists`, the operations that update them
  (`addAttributes`, `addMetadata`, `drawLayer`) and the generation loop
  `stackImageLayers`.

  The functions below give the whole module state as a value and say what each
  operation makes of it; the class `Generator` holds the same state in fields and
  its methods are proved to follow those functions. Randomness, the clock and the
  upload are parameters: one draw per layer per loop iteration (`rounds`), the clock
  reading and the uploaded file's IPFS hash per edition index (`clock`, `upload`).
 */
module Engine {
  import opened Wrappers
  import Text
  import Catalog
  import Selector
  import Formats
  import Surface

  const IpfsBase := "https://horus.mypinata.cloud/ipfs"

  /** One entry of `attributes`: `{id, trait_type, value}`. */
  datatype Attribute = Attribute(id: nat, traitType: string, value: string)

  /** One entry of `decodedHash`: `{[layer.id]: element.id}`. */
  datatype HashEntry = HashEntry(layerId: nat, elementId: nat)

  /** One entry of the `metadata` manifest. */
  datatype Record = Record(hash: string, tokenId: nat, date: string, attributes: seq<Attribute>, image: string)

  /**
    The module state: the manifest, the three per-edition accumulators, the set of
    combination keys seen (`Exists`) and the images written, by edition index, as the
    element paths painted on each.
   */
  datatype State = State(
    metadata: seq<Record>,
    attributes: seq<Attribute>,
    hash: seq<nat>,
    decodedHash: seq<HashEntry>,
    existing: set<string>,
    images: map<nat, seq<string>>)

  /** Reading `fileName` of the element at an index the layer does not have. */
  datatype DrawError = MissingElement(layerId: nat, index: nat)

  /** `hash.toString()`: the ids, comma-separated; the key stored in `Exists`. */
  function Key(hash: seq<nat>): string
  {
    Text.Join(",", Text.Decimals(hash))
  }

  /** `hash.join("")`: the ids run together; the `hash` field of a record. */
  function HashString(hash: seq<nat>): string
  {
    Text.Join("", Text.Decimals(hash))
  }

  /**
    The record hash loses the separators: layer 1's element 13 after layer 0's
    element 1, and layer 1's element 3 after layer 0's element 11, give the same
    record hash while their `Exists` keys differ.
   */
  lemma RecordHashIsNotInjective()
    ensures Key([0, 1, 1, 13]) != Key([0, 11, 1, 3])
    ensures HashString([0, 1, 1, 13]) == HashString([0, 11, 1, 3]) == "01113"
  {
    DecimalsOfExample();
    JoinFour("", "0", "1", "1", "13");
    JoinFour("", "0", "11", "1", "3");
    JoinFour(",", "0", "1", "1", "13");
    JoinFour(",", "0", "11", "1", "3");
    assert Key([0, 1, 1, 13])[3] == ',';
    assert Key([0, 11, 1, 3])[3] == '1';
  }

  /** The decimal strings of the two hashes above. */
  lemma DecimalsOfExample()
    ensures Text.Decimals([0, 1, 1, 13]) == ["0", "1", "1", "13"]
    ensures Text.Decimals([0, 11, 1, 3]) == ["0", "11", "1", "3"]
  {
    assert Text.NatToString(1) == "1";
    assert Text.NatToString(13) == "13";
    assert Text.NatToString(11) == "11";
  }

  /** A join of four parts, written out. */
  lemma JoinFour(sep: string, p0: string, p1: string, p2: string, p3: string)
    ensures Text.Join(sep, [p0, p1, p2, p3]) == p0 + sep + p1 + sep + p2 + sep + p3
  {
    var ps := [p0, p1, p2, p3];
    assert ps[..3] == [p0, p1, p2] && ps[..3][..2] == [p0, p1] && ps[..3][..2][..1] == [p0];
    assert Text.Join(sep, [p0, p1]) == p0 + sep + p1;
    assert Text.Join(sep, [p0, p1, p2]) == p0 + sep + p1 + sep + p2;
  }

  /** `addAttributes`: one attribute, the two ids and one decoded entry appended. */
  function AttributesAdded(s: State, e: Catalog.Element, layer: Catalog.Layer): State
  {
    s.(attributes := s.attributes + [Attribute(e.id, layer.name, e.name)],
       hash := s.hash + [layer.id, e.id],
       decodedHash := s.decodedHash + [HashEntry(layer.id, e.id)])
  }

  /**
    `addMetadata`: a record of the accumulated draws is appended to the manifest and
    the accumulators, and only they, are emptied.
   */
  function MetadataAdded(s: State, edition: nat, date: string, url: string): State
  {
    s.(metadata := s.metadata + [Record(HashString(s.hash), edition, date, s.attributes, IpfsBase + "/" + url)],
       attributes := [], hash := [], decodedHash := [])
  }

  /**
    The three accumulators describe the same draws: the k-th attribute, the k-th
    decoded entry and the k-th pair of `hash` name the same layer and element.
   */
  predicate Aligned(s: State)
  {
    |s.hash| == 2 * |s.attributes| && |s.decodedHash| == |s.attributes| &&
    forall k :: 0 <= k < |s.attributes| ==>
      s.hash[2 * k] == s.decodedHash[k].layerId &&
      s.hash[2 * k + 1] == s.decodedHash[k].elementId == s.attributes[k].id
  }

  lemma AddAttributesKeepsAligned(s: State, e: Catalog.Element, layer: Catalog.Layer)
    requires Aligned(s)
    ensures Aligned(AttributesAdded(s, e, layer))
    ensures AttributesAdded(s, e, layer).metadata == s.metadata
    ensures AttributesAdded(s, e, layer).existing == s.existing
  {
    var t := AttributesAdded(s, e, layer);
    forall k | 0 <= k < |t.attributes|
      ensures t.hash[2 * k] == t.decodedHash[k].layerId
      ensures t.hash[2 * k + 1] == t.decodedHash[k].elementId == t.attributes[k].id
    {
      if k < |s.attributes| {
        assert t.hash[2 * k] == s.hash[2 * k] && t.hash[2 * k + 1] == s.hash[2 * k + 1];
      }
    }
  }

  /** After `addMetadata` the accumulators are empty, so aligned, whatever they held. */
  lemma AddMetadataClears(s: State, edition: nat, date: string, url: string)
    ensures var t := MetadataAdded(s, edition, date, url);
      Aligned(t) && t.attributes == [] && t.hash == [] &&
      t.existing == s.existing && t.images == s.images &&
      |t.metadata| == |s.metadata| + 1 && t.metadata[..|s.metadata|] == s.metadata &&
      t.metadata[|s.metadata|].tokenId == edition &&
      t.metadata[|s.metadata|].hash == HashString(s.hash) &&
      t.metadata[|s.metadata|].date == date &&
      t.metadata[|s.metadata|].attributes == s.attributes &&
      t.metadata[|s.metadata|].image == IpfsBase + "/" + url
  {
  }

  /** What one call of `drawLayer` does: the state after it, the canvas, and a failure, if any. */
  datatype Drawn = Drawn(state: State, canvas: seq<string>, failure: Option<DrawError>)

  /**
    `drawLayer`: pick an index by the layer's weights; if the layer has an element
    there, record it and paint its file, else fail before anything changes.
   */
  function LayerDrawn(s: State, layer: Catalog.Layer, r: real, canvas: seq<string>): Drawn
  {
    var selected := Selector.Pick(layer.probs, r);
    if selected < |layer.elements| then
      var e := layer.elements[selected];
      Drawn(AttributesAdded(s, e, layer), canvas + [layer.location + e.fileName], None)
    else
      Drawn(s, canvas, Some(MissingElement(layer.id, selected)))
  }

  /**
    The inner loop of `stackImageLayers`: every layer drawn in order onto one canvas,
    stopping at the first failure. Only the accumulators change; a complete draw adds
    one attribute, two ids and one painted path per layer.
   */
  function DrawAll(s: State, layers: seq<Catalog.Layer>, rs: seq<real>, canvas: seq<string>): (d: Drawn)
    requires |rs| == |layers|
    ensures d.state.metadata == s.metadata && d.state.existing == s.existing && d.state.images == s.images
    ensures d.failure.None? ==> |d.canvas| == |canvas| + |layers|
    decreases |layers|
  {
    if |layers| == 0 then Drawn(s, canvas, None)
    else
      var d := LayerDrawn(s, layers[0], rs[0], canvas);
      if d.failure.Some? then d else DrawAll(d.state, layers[1..], rs[1..], d.canvas)
  }

  /**
    A draw only ever appends: whether it completes or stops at a missing element,
    the accumulators and the canvas keep what they held, so the picks of the layers
    drawn before a failure stay in the accumulators. A complete draw appends exactly
    one attribute, two ids, one decoded entry and one painted path per layer.
   */
  lemma {:induction false} DrawAllAppends(s: State, layers: seq<Catalog.Layer>, rs: seq<real>, canvas: seq<string>)
    requires |rs| == |layers|
    ensures var d := DrawAll(s, layers, rs, canvas);
      |s.attributes| <= |d.state.attributes| && d.state.attributes[..|s.attributes|] == s.attributes &&
      |s.hash| <= |d.state.hash| && d.state.hash[..|s.hash|] == s.hash &&
      |s.decodedHash| <= |d.state.decodedHash| && d.state.decodedHash[..|s.decodedHash|] == s.decodedHash &&
      |canvas| <= |d.canvas| && d.canvas[..|canvas|] == canvas
    ensures var d := DrawAll(s, layers, rs, canvas);
      d.failure.None? ==>
        |d.state.attributes| == |s.attributes| + |layers| &&
        |d.state.hash| == |s.hash| + 2 * |layers| &&
        |d.state.decodedHash| == |s.decodedHash| + |layers|
    decreases |layers|
  {
    if |layers| > 0 {
      var d := LayerDrawn(s, layers[0], rs[0], canvas);
      if d.failure.None? {
        DrawAllAppends(d.state, layers[1..], rs[1..], d.canvas);
        var rest := DrawAll(d.state, layers[1..], rs[1..], d.canvas);
        assert rest.state.attributes[..|s.attributes|] == rest.state.attributes[..|d.state.attributes|][..|s.attributes|];
        assert rest.state.hash[..|s.hash|] == rest.state.hash[..|d.state.hash|][..|s.hash|];
        assert rest.state.decodedHash[..|s.decodedHash|] == rest.state.decodedHash[..|d.state.decodedHash|][..|s.decodedHash|];
        assert rest.canvas[..|canvas|] == rest.canvas[..|d.canvas|][..|canvas|];
      }
    }
  }

  /**
    Layer k's pick, as a complete draw from `s` and `canvas` leaves it: the element
    the layer's weights select, its attribute at position k of the new attributes,
    the layer id then the element id at positions 2k and 2k + 1 of the new ids,
    its decoded entry at position k, and its path at position k of the new paint.
   */
  predicate LayerContributed(d: Drawn, s: State, canvas: seq<string>, k: nat, layer: Catalog.Layer, r: real)
  {
    var i := Selector.Pick(layer.probs, r);
    i < |layer.elements| &&
    |s.attributes| + k < |d.state.attributes| && |s.hash| + 2 * k + 1 < |d.state.hash| &&
    |s.decodedHash| + k < |d.state.decodedHash| && |canvas| + k < |d.canvas| &&
    var e := layer.elements[i];
    d.state.attributes[|s.attributes| + k] == Attribute(e.id, layer.name, e.name) &&
    d.state.hash[|s.hash| + 2 * k] == layer.id && d.state.hash[|s.hash| + 2 * k + 1] == e.id &&
    d.state.decodedHash[|s.decodedHash| + k] == HashEntry(layer.id, e.id) &&
    d.canvas[|canvas| + k] == layer.location + e.fileName
  }

  /** A complete draw holds, in layer order, exactly what each layer's own pick contributes. */
  lemma DrawAllContents(s: State, layers: seq<Catalog.Layer>, rs: seq<real>, canvas: seq<string>)
    requires |rs| == |layers|
    ensures var d := DrawAll(s, layers, rs, canvas);
      d.failure.None? ==> forall k :: 0 <= k < |layers| ==> LayerContributed(d, s, canvas, k, layers[k], rs[k])
  {
    var d := DrawAll(s, layers, rs, canvas);
    if d.failure.None? {
      forall k | 0 <= k < |layers|
        ensures LayerContributed(d, s, canvas, k, layers[k], rs[k])
      {
        DrawAllContributes(s, layers, rs, canvas, k);
      }
    }
  }

  /** Layer k's contribution to a complete draw. */
  lemma {:induction false} DrawAllContributes(s: State, layers: seq<Catalog.Layer>, rs: seq<real>, canvas: seq<string>, k: nat)
    requires |rs| == |layers| && k < |layers|
    requires DrawAll(s, layers, rs, canvas).failure.None?
    ensures LayerContributed(DrawAll(s, layers, rs, canvas), s, canvas, k, layers[k], rs[k])
    decreases |layers|
  {
    var d := DrawAll(s, layers, rs, canvas);
    var first := LayerDrawn(s, layers[0], rs[0], canvas);
    assert first.failure.None?;
    assert d == DrawAll(first.state, layers[1..], rs[1..], first.canvas);
    if k == 0 {
      FirstLayerContributes(s, layers, rs, canvas);
    } else {
      DrawAllContributes(first.state, layers[1..], rs[1..], first.canvas, k - 1);
      assert layers[1..][k - 1] == layers[k] && rs[1..][k - 1] == rs[k];
    }
  }

  /** The first layer's pick sits at the front of what a complete draw appends. */
  lemma FirstLayerContributes(s: State, layers: seq<Catalog.Layer>, rs: seq<real>, canvas: seq<string>)
    requires |rs| == |layers| && 0 < |layers|
    requires DrawAll(s, layers, rs, canvas).failure.None?
    ensures LayerContributed(DrawAll(s, layers, rs, canvas), s, canvas, 0, layers[0], rs[0])
  {
    var d := DrawAll(s, layers, rs, canvas);
    var first := LayerDrawn(s, layers[0], rs[0], canvas);
    assert d == DrawAll(first.state, layers[1..], rs[1..], first.canvas);
    DrawAllAppends(first.state, layers[1..], rs[1..], first.canvas);
    var m := |s.attributes|;
    assert d.state.attributes[m] == d.state.attributes[..m + 1][m];
    assert d.state.hash[|s.hash|] == d.state.hash[..|s.hash| + 2][|s.hash|];
    assert d.state.hash[|s.hash| + 1] == d.state.hash[..|s.hash| + 2][|s.hash| + 1];
    assert d.state.decodedHash[|s.decodedHash|] == d.state.decodedHash[..|s.decodedHash| + 1][|s.decodedHash|];
    assert d.canvas[|canvas|] == d.canvas[..|canvas| + 1][|canvas|];
  }

  /** How a run of the loop ended. */
  datatype Status = Completed | Failed(error: DrawError) | OutOfRounds

  /** The state after a run, how it ended, and the `Exists` keys it accepted, in order. */
  datatype Outcome = Outcome(state: State, status: Status, accepted: seq<string>)

  /** Every round holds one draw per layer. */
  predicate RoundsFit(layers: seq<Catalog.Layer>, rounds: seq<seq<real>>)
  {
    forall t :: 0 <= t < |rounds| ==> |rounds[t]| == |layers|
  }

  /** An accepted draw: the image is written for edition j, its key recorded, and the record added. */
  function Accept(s: State, j: nat, canvas: seq<string>, key: string,
                  upload: nat -> string, clock: nat -> Formats.DateTime): State
  {
    var written := s.(images := s.images[j := canvas], existing := s.existing + {key});
    MetadataAdded(written, j, Formats.GetCurrentTime(clock(j)), upload(j))
  }

  /**
    What one iteration of the loop leaves: the state, the slot the next iteration
    works on, the key accepted (none on a collision) and the failure, if any.
   */
  datatype Iteration = Iteration(state: State, slot: nat, accepted: Option<string>, failure: Option<DrawError>)

  /**
    One iteration of `stackImageLayers` for slot j: draw every layer; a known key
    keeps the slot (the `j--`), a new key is recorded and the slot advances.
    Only an accepted iteration touches `Exists`, the manifest or the images, and then
    only by its own key, one record numbered j and the image of slot j.
   */
  function Iterate(s: State, j: nat, layers: seq<Catalog.Layer>, round: seq<real>,
                   upload: nat -> string, clock: nat -> Formats.DateTime): (it: Iteration)
    requires |round| == |layers|
    ensures it.failure.Some? ==> it.accepted.None?
    ensures it.accepted.None? ==>
      it.slot == j && it.state.existing == s.existing &&
      it.state.metadata == s.metadata && it.state.images == s.images
    ensures it.accepted.Some? ==>
      it.slot == j + 1 && it.accepted.value !in s.existing &&
      it.state.existing == s.existing + {it.accepted.value} &&
      |it.state.metadata| == |s.metadata| + 1 && it.state.metadata[..|s.metadata|] == s.metadata &&
      it.state.metadata[|s.metadata|].tokenId == j &&
      j in it.state.images && |it.state.images[j]| == |layers| &&
      (forall e :: e in s.images && e != j ==> e in it.state.images && it.state.images[e] == s.images[e])
  {
    var d := DrawAll(s, layers, round, []);
    if d.failure.Some? then Iteration(d.state, j, None, d.failure)
    else
      var key := Key(d.state.hash);
      if key in d.state.existing then Iteration(d.state, j, None, None)
      else Iteration(Accept(d.state, j, d.canvas, key, upload, clock), j + 1, Some(key), None)
  }

  /**
    What an iteration records is the draw it made: an accepted key is that draw's
    key, slot j's image is that draw's canvas, and the new record carries that
    draw's attributes and joined ids. A collision keeps the draw in the
    accumulators, and its key was already known; so does a failure, with the picks
    made before the missing element.
   */
  lemma IterateRecordsTheDraw(s: State, j: nat, layers: seq<Catalog.Layer>, round: seq<real>,
                              upload: nat -> string, clock: nat -> Formats.DateTime)
    requires |round| == |layers|
    ensures var it := Iterate(s, j, layers, round, upload, clock);
      var d := DrawAll(s, layers, round, []);
      (it.accepted.Some? ==>
        it.accepted.value == Key(d.state.hash) && j in it.state.images && it.state.images[j] == d.canvas &&
        |it.state.metadata| == |s.metadata| + 1 &&
        it.state.metadata[|s.metadata|].attributes == d.state.attributes &&
        it.state.metadata[|s.metadata|].hash == HashString(d.state.hash)) &&
      (it.failure.None? && it.accepted.None? ==> it.state == d.state && Key(it.state.hash) in s.existing) &&
      (it.failure.Some? ==> it.state == d.state && it.failure == d.failure)
  {
  }

  /**
    `stackImageLayers` from edition slot j on. A collision retries the same slot
    without clearing the accumulators; no iteration gives up, because the collision
    count is reset every iteration and so never passes its bound. Each collision
    lengthens the key, so a slot collides at most |Exists| times (RetriesBounded).
    A run that spends every round given to it before reaching `edition` stops as
    OutOfRounds: the rounds are the draws the source would go on to make.
   */
  function Run(s: State, j: nat, edition: int, layers: seq<Catalog.Layer>, rounds: seq<seq<real>>,
               upload: nat -> string, clock: nat -> Formats.DateTime): Outcome
    requires RoundsFit(layers, rounds)
    decreases |rounds|
  {
    if edition <= j then Outcome(s, Completed, [])
    else if |rounds| == 0 then Outcome(s, OutOfRounds, [])
    else
      var it := Iterate(s, j, layers, rounds[0], upload, clock);
      if it.failure.Some? then Outcome(it.state, Failed(it.failure.value), [])
      else
        var o := Run(it.state, it.slot, edition, layers, rounds[1..], upload, clock);
        if it.accepted.Some? then o.(accepted := [it.accepted.value] + o.accepted) else o
  }

  /** No key occurs twice. */
  predicate NoRepeats(keys: seq<string>)
  {
    |keys| == 0 || (keys[0] !in keys[1..] && NoRepeats(keys[1..]))
  }

  /** NoRepeats is pairwise distinctness. */
  lemma {:induction false} NoRepeatsIsPairwiseDistinct(keys: seq<string>)
    ensures NoRepeats(keys) <==> forall a, b :: 0 <= a < b < |keys| ==> keys[a] != keys[b]
  {
    if |keys| > 0 {
      NoRepeatsIsPairwiseDistinct(keys[1..]);
      if forall a, b :: 0 <= a < b < |keys| ==> keys[a] != keys[b] {
        assert forall a, b :: 0 <= a < b < |keys| - 1 ==> keys[1..][a] != keys[1..][b] by {
          forall a, b | 0 <= a < b < |keys| - 1 ensures keys[1..][a] != keys[1..][b] {
            assert keys[a + 1] != keys[b + 1];
          }
        }
      }
      if NoRepeats(keys) {
        forall a, b | 0 <= a < b < |keys| ensures keys[a] != keys[b] {
          if a > 0 {
            assert keys[a] == keys[1..][a - 1] && keys[b] == keys[1..][b - 1];
          } else {
            assert keys[b] in keys[1..];
          }
        }
      }
    }
  }

  /**
    The keys a run accepts were all absent from `Exists` when the run began, and
    no key is accepted twice.
   */
  lemma {:induction false} RunAcceptsFreshKeys(s: State, j: nat, edition: int, layers: seq<Catalog.Layer>,
                                               rounds: seq<seq<real>>, upload: nat -> string,
                                               clock: nat -> Formats.DateTime)
    requires RoundsFit(layers, rounds)
    ensures var o := Run(s, j, edition, layers, rounds, upload, clock);
      (forall key :: key in o.accepted ==> key !in s.existing) && NoRepeats(o.accepted)
    decreases |rounds|
  {
    if j < edition && |rounds| > 0 {
      var it := Iterate(s, j, layers, rounds[0], upload, clock);
      if it.failure.None? {
        RunAcceptsFreshKeys(it.state, it.slot, edition, layers, rounds[1..], upload, clock);
        if it.accepted.Some? {
          var o := Run(it.state, it.slot, edition, layers, rounds[1..], upload, clock);
          assert ([it.accepted.value] + o.accepted)[1..] == o.accepted;
        }
      }
    }
  }

  /** A run changes `Exists` only by adding the keys it accepts. */
  lemma {:induction false} RunGrowsExists(s: State, j: nat, edition: int, layers: seq<Catalog.Layer>,
                                          rounds: seq<seq<real>>, upload: nat -> string,
                                          clock: nat -> Formats.DateTime)
    requires RoundsFit(layers, rounds)
    ensures var o := Run(s, j, edition, layers, rounds, upload, clock);
      o.state.existing == s.existing + (set key | key in o.accepted)
    decreases |rounds|
  {
    if j < edition && |rounds| > 0 {
      var it := Iterate(s, j, layers, rounds[0], upload, clock);
      if it.failure.None? {
        RunGrowsExists(it.state, it.slot, edition, layers, rounds[1..], upload, clock);
        if it.accepted.Some? {
          var o := Run(it.state, it.slot, edition, layers, rounds[1..], upload, clock);
          var key := it.accepted.value;
          assert (set k | k in [key] + o.accepted) == {key} + (set k | k in o.accepted);
        }
      }
    }
  }

  /**
    A run only adds to the manifest: the old records stay, one record is added per
    accepted key, numbered from the starting slot on, and a completed run accepted
    one key per remaining slot.
   */
  lemma {:induction false} RunAppendsRecords(s: State, j: nat, edition: int, layers: seq<Catalog.Layer>,
                                             rounds: seq<seq<real>>, upload: nat -> string,
                                             clock: nat -> Formats.DateTime)
    requires RoundsFit(layers, rounds)
    ensures var o := Run(s, j, edition, layers, rounds, upload, clock);
      |o.state.metadata| == |s.metadata| + |o.accepted| &&
      o.state.metadata[..|s.metadata|] == s.metadata &&
      (forall k :: |s.metadata| <= k < |o.state.metadata| ==> o.state.metadata[k].tokenId == j + (k - |s.metadata|)) &&
      (o.status == Completed && j <= edition ==> j + |o.accepted| == edition)
    decreases |rounds|
  {
    if j < edition && |rounds| > 0 {
      var it := Iterate(s, j, layers, rounds[0], upload, clock);
      if it.failure.None? {
        RunAppendsRecords(it.state, it.slot, edition, layers, rounds[1..], upload, clock);
        var o := Run(it.state, it.slot, edition, layers, rounds[1..], upload, clock);
        if it.accepted.Some? {
          var m := |s.metadata|;
          assert o.state.metadata[..m] == o.state.metadata[..m + 1][..m];
          forall k | m <= k < |o.state.metadata|
            ensures o.state.metadata[k].tokenId == j + (k - m)
          {
            if k == m {
              assert o.state.metadata[m] == o.state.metadata[..m + 1][m];
            }
          }
        }
      }
    }
  }

  /** A run never rewrites the image of a slot below the one it starts at. */
  lemma {:induction false} RunKeepsEarlierImages(s: State, j: nat, edition: int, layers: seq<Catalog.Layer>,
                                                 rounds: seq<seq<real>>, upload: nat -> string,
                                                 clock: nat -> Formats.DateTime, e: nat)
    requires RoundsFit(layers, rounds) && e in s.images && e < j
    ensures var o := Run(s, j, edition, layers, rounds, upload, clock);
      e in o.state.images && o.state.images[e] == s.images[e]
    decreases |rounds|
  {
    if j < edition && |rounds| > 0 {
      var it := Iterate(s, j, layers, rounds[0], upload, clock);
      if it.failure.None? {
        RunKeepsEarlierImages(it.state, it.slot, edition, layers, rounds[1..], upload, clock, e);
      }
    }
  }

  /** The collision of the first round and the acceptance of the second, as one step of Run. */
  lemma RetryAccepts(s: State, j: nat, edition: int, layers: seq<Catalog.Layer>,
                     rounds: seq<seq<real>>, upload: nat -> string, clock: nat -> Formats.DateTime)
    requires RoundsFit(layers, rounds) && j < edition && |rounds| >= 2
    requires var d0 := DrawAll(s, layers, rounds[0], []);
      d0.failure.None? && Key(d0.state.hash) in d0.state.existing &&
      var d1 := DrawAll(d0.state, layers, rounds[1], []);
      d1.failure.None? && Key(d1.state.hash) !in d1.state.existing
    ensures var d0 := DrawAll(s, layers, rounds[0], []);
      var d1 := DrawAll(d0.state, layers, rounds[1], []);
      var a := Accept(d1.state, j, d1.canvas, Key(d1.state.hash), upload, clock);
      Run(s, j, edition, layers, rounds, upload, clock).state == Run(a, j + 1, edition, layers, rounds[2..], upload, clock).state
  {
    var d0 := DrawAll(s, layers, rounds[0], []);
    var d1 := DrawAll(d0.state, layers, rounds[1], []);
    var it0 := Iterate(s, j, layers, rounds[0], upload, clock);
    assert it0 == Iteration(d0.state, j, None, None);
    RunStep(s, j, edition, layers, rounds, upload, clock);
    var rest := rounds[1..];
    var it1 := Iterate(d0.state, j, layers, rest[0], upload, clock);
    assert it1.state == Accept(d1.state, j, d1.canvas, Key(d1.state.hash), upload, clock) && it1.slot == j + 1;
    RunStep(d0.state, j, edition, layers, rest, upload, clock);
    assert rest[1..] == rounds[2..];
  }

  /** A run with slots left and rounds to spend is its first iteration followed by the run from where that left off. */
  lemma RunStep(s: State, j: nat, edition: int, layers: seq<Catalog.Layer>,
                rounds: seq<seq<real>>, upload: nat -> string, clock: nat -> Formats.DateTime)
    requires RoundsFit(layers, rounds) && j < edition && |rounds| >= 1
    ensures var it := Iterate(s, j, layers, rounds[0], upload, clock);
      var o := Run(s, j, edition, layers, rounds, upload, clock);
      if it.failure.Some? then o.state == it.state && o.status == Failed(it.failure.value)
      else
        var rest := Run(it.state, it.slot, edition, layers, rounds[1..], upload, clock);
        o.state == rest.state && o.status == rest.status
  {
  }

  /**
    A collision keeps the first draw: when the first round's key is already known
    and the second round's is new, the record for slot j carries the attributes and
    ids of both draws, while the image saved for slot j shows only the second.
   */
  lemma RetryAppendsSecondDraw(s: State, j: nat, edition: int, layers: seq<Catalog.Layer>,
                               rounds: seq<seq<real>>, upload: nat -> string, clock: nat -> Formats.DateTime)
    requires RoundsFit(layers, rounds) && j < edition && |rounds| >= 2
    requires var d0 := DrawAll(s, layers, rounds[0], []);
      d0.failure.None? && Key(d0.state.hash) in d0.state.existing &&
      var d1 := DrawAll(d0.state, layers, rounds[1], []);
      d1.failure.None? && Key(d1.state.hash) !in d1.state.existing
    ensures var o := Run(s, j, edition, layers, rounds, upload, clock);
      var d0 := DrawAll(s, layers, rounds[0], []);
      var d1 := DrawAll(d0.state, layers, rounds[1], []);
      |o.state.metadata| > |s.metadata| &&
      o.state.metadata[|s.metadata|].tokenId == j &&
      o.state.metadata[|s.metadata|].attributes == d1.state.attributes &&
      |o.state.metadata[|s.metadata|].attributes| == |s.attributes| + 2 * |layers| &&
      o.state.metadata[|s.metadata|].hash == HashString(d1.state.hash) &&
      |d1.state.hash| == |s.hash| + 4 * |layers| &&
      j in o.state.images && o.state.images[j] == d1.canvas && |d1.canvas| == |layers|
  {
    var d0 := DrawAll(s, layers, rounds[0], []);
    var d1 := DrawAll(d0.state, layers, rounds[1], []);
    DrawAllAppends(s, layers, rounds[0], []);
    DrawAllAppends(d0.state, layers, rounds[1], []);
    var a := Accept(d1.state, j, d1.canvas, Key(d1.state.hash), upload, clock);
    RetryAccepts(s, j, edition, layers, rounds, upload, clock);
    RunAppendsRecords(a, j + 1, edition, layers, rounds[2..], upload, clock);
    RunKeepsEarlierImages(a, j + 1, edition, layers, rounds[2..], upload, clock, j);
    var o := Run(a, j + 1, edition, layers, rounds[2..], upload, clock);
    var m := |s.metadata|;
    assert o.state.metadata[m] == o.state.metadata[..m + 1][m];
  }

  /**
    With no layers every draw leaves the accumulators as they are, so once their key
    is in `Exists` every iteration collides and the run never completes. From an
    empty state, a second edition of a layerless run is such a case.
   */
  lemma {:induction false} NoLayersNeverCompletes(s: State, j: nat, edition: int, rounds: seq<seq<real>>,
                                                  upload: nat -> string, clock: nat -> Formats.DateTime)
    requires RoundsFit([], rounds) && j < edition && Key(s.hash) in s.existing
    ensures Run(s, j, edition, [], rounds, upload, clock).status == OutOfRounds
    decreases |rounds|
  {
    if |rounds| > 0 {
      NoLayersNeverCompletes(s, j, edition, rounds[1..], upload, clock);
    }
  }

  /** A hash that extends another by at least one id has a strictly longer key. */
  lemma KeyGrows(h: seq<nat>, h': seq<nat>)
    requires |h| < |h'| && h'[..|h|] == h
    ensures |Key(h)| < |Key(h')|
  {
    var ds := Text.Decimals(h);
    var ds' := Text.Decimals(h');
    Text.JoinLength(",", ds');
    assert |ds'[|ds'| - 1]| >= 1;
    assert ds'[..|ds'| - 1][..0] == [];
    if |h| == 0 {
      assert Text.TotalLength(ds') >= 1 by {
        assert Text.TotalLength(ds') == Text.TotalLength(ds'[..|ds'| - 1]) + |ds'[|ds'| - 1]|;
      }
    } else {
      Text.JoinLength(",", ds);
      assert ds'[..|h|] == ds;
      Text.TotalLengthPrefix(ds', |h|);
    }
  }

  /** With at least one layer, a collision appends a draw, so the next attempt's key is longer. */
  lemma CollisionLengthensKey(s: State, j: nat, layers: seq<Catalog.Layer>, round: seq<real>,
                              upload: nat -> string, clock: nat -> Formats.DateTime)
    requires |round| == |layers| && |layers| >= 1
    requires var it := Iterate(s, j, layers, round, upload, clock); it.failure.None? && it.accepted.None?
    ensures var it := Iterate(s, j, layers, round, upload, clock);
      |Key(s.hash)| < |Key(it.state.hash)| && it.state.existing == s.existing && Key(it.state.hash) in s.existing
  {
    IterateRecordsTheDraw(s, j, layers, round, upload, clock);
    var d := DrawAll(s, layers, round, []);
    DrawAllAppends(s, layers, round, []);
    KeyGrows(s.hash, d.state.hash);
  }

  /**
    The keys of the attempts that collide one after another at slot j, before an
    attempt is accepted or fails or the rounds run out.
   */
  function Retried(s: State, j: nat, layers: seq<Catalog.Layer>, rounds: seq<seq<real>>,
                   upload: nat -> string, clock: nat -> Formats.DateTime): seq<string>
    requires RoundsFit(layers, rounds)
    decreases |rounds|
  {
    if |rounds| == 0 then []
    else
      var it := Iterate(s, j, layers, rounds[0], upload, clock);
      if it.failure.None? && it.accepted.None? then
        [Key(it.state.hash)] + Retried(it.state, j, layers, rounds[1..], upload, clock)
      else []
  }

  /** The colliding keys at a slot are known keys, each longer than the last, hence distinct. */
  lemma {:induction false} RetriedKeysGrow(s: State, j: nat, layers: seq<Catalog.Layer>, rounds: seq<seq<real>>,
                                           upload: nat -> string, clock: nat -> Formats.DateTime)
    requires RoundsFit(layers, rounds) && |layers| >= 1
    ensures var keys := Retried(s, j, layers, rounds, upload, clock);
      NoRepeats(keys) && forall key :: key in keys ==> key in s.existing && |Key(s.hash)| < |key|
    decreases |rounds|
  {
    if |rounds| > 0 {
      var it := Iterate(s, j, layers, rounds[0], upload, clock);
      if it.failure.None? && it.accepted.None? {
        CollisionLengthensKey(s, j, layers, rounds[0], upload, clock);
        RetriedKeysGrow(it.state, j, layers, rounds[1..], upload, clock);
        var rest := Retried(it.state, j, layers, rounds[1..], upload, clock);
        var head := Key(it.state.hash);
        var keys := [head] + rest;
        assert Retried(s, j, layers, rounds, upload, clock) == keys;
        assert keys[1..] == rest;
        assert head !in rest;
        forall key | key in keys
          ensures key in s.existing && |Key(s.hash)| < |key|
        {
          if key != head {
            assert key in rest;
          }
        }
      }
    }
  }

  /** Distinct keys fill a set of their own size. */
  lemma {:induction false} NoRepeatsCard(keys: seq<string>)
    requires NoRepeats(keys)
    ensures |set key | key in keys| == |keys|
  {
    if |keys| > 0 {
      NoRepeatsCard(keys[1..]);
      assert (set key | key in keys) == {keys[0]} + (set key | key in keys[1..]);
    }
  }

  lemma {:induction false} SubsetCard(a: set<string>, b: set<string>)
    requires a <= b
    ensures |a| <= |b|
    decreases |b|
  {
    if a != {} {
      var x :| x in a;
      SubsetCard(a - {x}, b - {x});
    }
  }

  /**
    With at least one layer a slot collides at most |Exists| times in a row: every
    retry's key is longer than all earlier ones and must already be known. So with
    draws that never fail, each slot is accepted within |Exists| + 1 rounds and the
    loop completes, however small the trait space.
   */
  lemma RetriesBounded(s: State, j: nat, layers: seq<Catalog.Layer>, rounds: seq<seq<real>>,
                       upload: nat -> string, clock: nat -> Formats.DateTime)
    requires RoundsFit(layers, rounds) && |layers| >= 1
    ensures |Retried(s, j, layers, rounds, upload, clock)| <= |s.existing|
  {
    var keys := Retried(s, j, layers, rounds, upload, clock);
    RetriedKeysGrow(s, j, layers, rounds, upload, clock);
    NoRepeatsCard(keys);
    SubsetCard((set key | key in keys), s.existing);
  }

  /** Drawing a single layer is one `drawLayer`. */
  lemma DrawSingle(s: State, layer: Catalog.Layer, r: real, canvas: seq<string>)
    ensures DrawAll(s, [layer], [r], canvas) == LayerDrawn(s, layer, r, canvas)
  {
    assert [layer][1..] == [] && [r][1..] == [];
  }

  /** A layer with a single element, which every draw picks. */
  const Ball := Catalog.Layer(0, "Ball", "ball/", [Catalog.Element(0, "red", "red.png")],
                              Catalog.Size(1, 1), 1, [1.0])

  /** Drawing the single-element layer always adds its one element and paints its file. */
  lemma BallDrawn(s: State)
    ensures DrawAll(s, [Ball], [0.5], []) ==
      Drawn(AttributesAdded(s, Catalog.Element(0, "red", "red.png"), Ball), ["ball/red.png"], None)
  {
    assert Selector.Pick([1.0], 0.5) == 0 by {
      assert [1.0][..1] == [1.0] && [1.0][..0] == [];
      assert Selector.Hits([1.0], 0.5, 0);
    }
    DrawSingle(s, Ball, 0.5, []);
    assert Ball.location + "red.png" == "ball/red.png";
    assert [] + [Ball.location + "red.png"] == ["ball/red.png"];
  }

  /** A round whose draw makes a new key is accepted for the slot. */
  lemma BallIterateAccepts(s: State, j: nat, upload: nat -> string, clock: nat -> Formats.DateTime)
    requires Key(s.hash + [0, 0]) !in s.existing
    ensures var d := AttributesAdded(s, Catalog.Element(0, "red", "red.png"), Ball);
      Iterate(s, j, [Ball], [0.5], upload, clock) ==
        Iteration(Accept(d, j, ["ball/red.png"], Key(d.hash), upload, clock), j + 1, Some(Key(d.hash)), None)
  {
    BallDrawn(s);
  }

  /** Two editions saved, both showing the single element, the second record holding two draws. */
  predicate SameTwice(o: Outcome)
  {
    o.status == Completed && |o.state.metadata| == 2 && |o.state.metadata[1].attributes| == 2 &&
    0 in o.state.images && 1 in o.state.images && o.state.images[0] == o.state.images[1] == ["ball/red.png"]
  }

  /** With one draw held back and its doubled key new, the round fills slot 1 and completes the run. */
  lemma BallAcceptsLonger(s: State, rounds: seq<seq<real>>, upload: nat -> string, clock: nat -> Formats.DateTime)
    requires Key(s.hash + [0, 0]) !in s.existing && |s.attributes| == 1
    requires s.images == map[0 := ["ball/red.png"]] && |s.metadata| == 1
    requires RoundsFit([Ball], rounds) && |rounds| >= 1 && rounds[0] == [0.5]
    ensures SameTwice(Run(s, 1, 2, [Ball], rounds, upload, clock))
  {
    BallIterateAccepts(s, 1, upload, clock);
    RunStep(s, 1, 2, [Ball], rounds, upload, clock);
  }

  /** With "0,0" known and the accumulators empty, the round collides; the next one completes the run. */
  lemma BallCollidesThenAccepts(s: State, rounds: seq<seq<real>>, upload: nat -> string, clock: nat -> Formats.DateTime)
    requires s.hash == [] && s.existing == {Key([0, 0])} && s.attributes == []
    requires s.images == map[0 := ["ball/red.png"]] && |s.metadata| == 1
    requires RoundsFit([Ball], rounds) && |rounds| >= 2 && rounds[0] == rounds[1] == [0.5]
    ensures SameTwice(Run(s, 1, 2, [Ball], rounds, upload, clock))
  {
    BallDrawn(s);
    var d := AttributesAdded(s, Catalog.Element(0, "red", "red.png"), Ball);
    assert s.hash + [0, 0] == [0, 0] && d.hash + [0, 0] == [0, 0, 0, 0];
    KeyGrows([0, 0], [0, 0, 0, 0]);
    RunStep(s, 1, 2, [Ball], rounds, upload, clock);
    BallAcceptsLonger(d, rounds[1..], upload, clock);
  }

  /** Accepting the first draw from a fresh start leaves one record, one image and the key "0,0". */
  lemma BallFirstAccepted(s0: State, upload: nat -> string, clock: nat -> Formats.DateTime)
    requires s0.metadata == [] && s0.attributes == [] && s0.hash == [] && s0.existing == {} && s0.images == map[]
    ensures var d := AttributesAdded(s0, Catalog.Element(0, "red", "red.png"), Ball);
      var a := Accept(d, 0, ["ball/red.png"], Key(d.hash), upload, clock);
      Key(s0.hash + [0, 0]) !in s0.existing && a.hash == [] && a.existing == {Key([0, 0])} &&
      a.attributes == [] && a.images == map[0 := ["ball/red.png"]] && |a.metadata| == 1
  {
    var d := AttributesAdded(s0, Catalog.Element(0, "red", "red.png"), Ball);
    assert d.hash == [0, 0];
  }

  /** From a fresh start the first round is accepted for slot 0, and the run goes on with slot 1. */
  lemma BallFirstRound(s0: State, rounds: seq<seq<real>>, upload: nat -> string, clock: nat -> Formats.DateTime)
    requires s0.existing == {}
    requires RoundsFit([Ball], rounds) && |rounds| >= 1 && rounds[0] == [0.5]
    ensures var d := AttributesAdded(s0, Catalog.Element(0, "red", "red.png"), Ball);
      var o := Run(s0, 0, 2, [Ball], rounds, upload, clock);
      var rest := Run(Accept(d, 0, ["ball/red.png"], Key(d.hash), upload, clock), 1, 2, [Ball], rounds[1..], upload, clock);
      o.state == rest.state && o.status == rest.status
  {
    BallIterateAccepts(s0, 0, upload, clock);
    RunStep(s0, 0, 2, [Ball], rounds, upload, clock);
  }

  /** After the first acceptance from a fresh start, the next two rounds complete the run. */
  lemma BallAfterFirst(s0: State, rounds: seq<seq<real>>, upload: nat -> string, clock: nat -> Formats.DateTime)
    requires s0.metadata == [] && s0.attributes == [] && s0.hash == [] && s0.existing == {} && s0.images == map[]
    requires RoundsFit([Ball], rounds) && |rounds| >= 2 && rounds[0] == rounds[1] == [0.5]
    ensures var d := AttributesAdded(s0, Catalog.Element(0, "red", "red.png"), Ball);
      SameTwice(Run(Accept(d, 0, ["ball/red.png"], Key(d.hash), upload, clock), 1, 2, [Ball], rounds, upload, clock))
  {
    var d := AttributesAdded(s0, Catalog.Element(0, "red", "red.png"), Ball);
    BallFirstAccepted(s0, upload, clock);
    BallCollidesThenAccepts(Accept(d, 0, ["ball/red.png"], Key(d.hash), upload, clock), rounds, upload, clock);
  }

  /** From a fresh start the first round is accepted; the next two complete the run. */
  lemma BallFromFresh(s0: State, rounds: seq<seq<real>>, upload: nat -> string, clock: nat -> Formats.DateTime)
    requires s0.metadata == [] && s0.attributes == [] && s0.hash == [] && s0.existing == {} && s0.images == map[]
    requires RoundsFit([Ball], rounds) && |rounds| >= 3 && rounds[0] == rounds[1] == rounds[2] == [0.5]
    ensures SameTwice(Run(s0, 0, 2, [Ball], rounds, upload, clock))
  {
    BallFirstRound(s0, rounds, upload, clock);
    BallAfterFirst(s0, rounds[1..], upload, clock);
  }

  /**
    An exhausted trait space still completes: one layer with one element, two
    editions. The first round is accepted; the second draws the same element and
    collides; the third appends a second draw to the accumulators, whose longer key
    is new, so slot 1 is accepted. Its record carries two attributes, and both
    saved images show the same element.
   */
  lemma ExhaustedSpaceCompletes(s0: State, rounds: seq<seq<real>>, upload: nat -> string, clock: nat -> Formats.DateTime)
    requires s0.metadata == [] && s0.attributes == [] && s0.hash == [] && s0.existing == {} && s0.images == map[]
    requires |rounds| == 3 && rounds[0] == rounds[1] == rounds[2] == [0.5]
    ensures RoundsFit([Ball], rounds)
    ensures var o := Run(s0, 0, 2, [Ball], rounds, upload, clock);
      o.status == Completed && |o.state.metadata| == 2 && |o.state.metadata[1].attributes| == 2 &&
      0 in o.state.images && 1 in o.state.images && o.state.images[0] == o.state.images[1] == ["ball/red.png"]
  {
    BallFromFresh(s0, rounds, upload, clock);
  }

  /** The module state of utils/helpers.js. */
  class Generator {
    var metadata: seq<Record>
    var attributes: seq<Attribute>
    var hash: seq<nat>
    var decodedHash: seq<HashEntry>
    var existing: set<string>
    var images: map<nat, seq<string>>

    function Snapshot(): State
      reads this
    {
      State(metadata, attributes, hash, decodedHash, existing, images)
    }

    /** The state when the module is loaded: everything empty. */
    constructor ()
      ensures Snapshot() == State([], [], [], [], {}, map[])
    {
      metadata, attributes, hash, decodedHash := [], [], [], [];
      existing, images := {}, map[];
    }

    method AddAttributes(e: Catalog.Element, layer: Catalog.Layer)
      modifies this
      ensures Snapshot() == AttributesAdded(old(Snapshot()), e, layer)
    {
      attributes := attributes + [Attribute(e.id, layer.name, e.name)];
      hash := hash + [layer.id];
      hash := hash + [e.id];
      decodedHash := decodedHash + [HashEntry(layer.id, e.id)];
    }

    /** `addMetadata` with the upload of `<edition>.jpg` and the clock as oracles. */
    method AddMetadata(edition: nat, upload: nat -> string, clock: nat -> Formats.DateTime)
      modifies this
      ensures Snapshot() == MetadataAdded(old(Snapshot()), edition,
                                               Formats.GetCurrentTime(clock(edition)), upload(edition))
    {
      var dateTime := Formats.GetCurrentTime(clock(edition));
      var url := upload(edition);
      var record := Record(HashString(hash), edition, dateTime, attributes, IpfsBase + "/" + url);
      metadata := metadata + [record];
      attributes := [];
      hash := [];
      decodedHash := [];
    }

    method DrawLayer(layer: Catalog.Layer, canvas: Surface.Canvas, r: real) returns (failure: Option<DrawError>)
      modifies this, canvas
      ensures LayerDrawn(old(Snapshot()), layer, r, old(canvas.painted)) ==
              Drawn(Snapshot(), canvas.painted, failure)
    {
      var selected := Selector.PickElementWithProbs(layer.probs, r);
      if selected >= |layer.elements| {
        return Some(MissingElement(layer.id, selected));
      }
      var element := layer.elements[selected];
      var imageSrc := layer.location + element.fileName;
      AddAttributes(element, layer);
      canvas.Paint(imageSrc);
      return None;
    }

    /** The inner loop of `stackImageLayers`: each layer in turn, until one fails. */
    method DrawLayers(layers: seq<Catalog.Layer>, canvas: Surface.Canvas, round: seq<real>)
      returns (failure: Option<DrawError>)
      requires |round| == |layers|
      modifies this, canvas
      ensures DrawAll(old(Snapshot()), layers, round, old(canvas.painted)) == Drawn(Snapshot(), canvas.painted, failure)
    {
      failure := None;
      var i := 0;
      while i < |layers| && failure.None?
        invariant 0 <= i <= |layers|
        invariant failure.None? ==>
          DrawAll(old(Snapshot()), layers, round, old(canvas.painted)) ==
          DrawAll(Snapshot(), layers[i..], round[i..], canvas.painted)
        invariant failure.Some? ==>
          DrawAll(old(Snapshot()), layers, round, old(canvas.painted)) == Drawn(Snapshot(), canvas.painted, failure)
      {
        assert layers[i..][1..] == layers[i + 1..] && round[i..][1..] == round[i + 1..];
        failure := DrawLayer(layers[i], canvas, round[i]);
        i := i + 1;
      }
    }

    /**
      The body of the loop of `stackImageLayers` for slot j, up to the collision
      check: a fresh canvas, every layer drawn, and on a new key the image saved,
      the key recorded and the record added.
     */
    method DrawEdition(j: nat, layers: seq<Catalog.Layer>, round: seq<real>,
                       upload: nat -> string, clock: nat -> Formats.DateTime)
      returns (failure: Option<DrawError>, accepted: bool)
      requires |round| == |layers|
      modifies this
      ensures var it := Iterate(old(Snapshot()), j, layers, round, upload, clock);
        Snapshot() == it.state && failure == it.failure && (accepted <==> it.accepted.Some?)
    {
      var canvas := new Surface.Canvas();
      failure := DrawLayers(layers, canvas, round);
      accepted := false;
      if failure.Some? {
        return;
      }
      var key := Key(hash);
      if key !in existing {
        images := images[j := canvas.painted];
        existing := existing + {key};
        AddMetadata(j, upload, clock);
        accepted := true;
      }
    }

    /**
      `stackImageLayers`: returns the manifest when every slot below `edition` holds
      an accepted draw.
     */
    method StackImageLayers(edition: int, layers: seq<Catalog.Layer>, rounds: seq<seq<real>>,
                            upload: nat -> string, clock: nat -> Formats.DateTime)
      returns (status: Status, manifest: seq<Record>)
      requires RoundsFit(layers, rounds)
      modifies this
      ensures var o := Run(old(Snapshot()), 0, edition, layers, rounds, upload, clock);
        Snapshot() == o.state && status == o.status
      ensures status == Completed ==> manifest == metadata
    {
      ghost var whole := Run(Snapshot(), 0, edition, layers, rounds, upload, clock);
      var j := 0;
      var t := 0;
      assert rounds[t..] == rounds;
      while j < edition
        invariant 0 <= j && 0 <= t <= |rounds|
        invariant whole == Run(old(Snapshot()), 0, edition, layers, rounds, upload, clock)
        invariant var p := Run(Snapshot(), j, edition, layers, rounds[t..], upload, clock);
          whole.state == p.state && whole.status == p.status
        decreases |rounds| - t
      {
        if t == |rounds| {
          return OutOfRounds, [];
        }
        ghost var before := Snapshot();
        ghost var it := Iterate(before, j, layers, rounds[t], upload, clock);
        RunStep(before, j, edition, layers, rounds[t..], upload, clock);
        assert rounds[t..][0] == rounds[t] && rounds[t..][1..] == rounds[t + 1..];
        var noUnique := 0;
        var failure, accepted := DrawEdition(j, layers, rounds[t], upload, clock);
        if failure.Some? {
          return Failed(failure.value), [];
        }
        if !accepted {
          noUnique := noUnique + 1;
          if noUnique > edition {
            // The give-up branch: noUnique is 1 here and edition is at least 1.
            assert false;
          }
          j := j - 1;
        }
        ghost var next := Run(it.state, it.slot, edition, layers, rounds[t + 1..], upload, clock);
        assert whole.state == next.state && whole.status == next.status;
        t := t + 1;
        j := j + 1;
        assert Run(Snapshot(), j, edition, layers, rounds[t..], upload, clock) == next;
      }
      return Completed, metadata;
    }
  }
}

=== FILE: formats.dfy ===
/**
  The small string helpers of utils/helpers.js: the timestamp of `getCurrentTime`,
  the header fallback of `getContentType` and the data-URL prefix strip of
  `getImageBuffer`.
 */
module Formats {
  import opened Wrappers
  import Text

  /**
    The clock reading `getCurrentTime` takes from `new Date()`: `monthIndex` is
    what `getMonth()` returns (0 for January).
   */
  datatype DateTime = DateTime(year: int, monthIndex: nat, day: nat, hours: nat, minutes: nat, seconds: nat)

  /** `n.toString().padStart(2, '0')`. */
  function Pad2(n: nat): string
  {
    Text.PadStart(Text.NatToString(n), 2, '0')
  }

  /** `getCurrentTime`: `YYYY_MM_DD_HH_MM_SS`, every field but the year padded to two digits. */
  function GetCurrentTime(t: DateTime): string
  {
    Text.IntToString(t.year) + "_" + Pad2(t.monthIndex + 1) + "_" + Pad2(t.day) + "_" +
    Pad2(t.hours) + "_" + Pad2(t.minutes) + "_" + Pad2(t.seconds)
  }

  /** A field below 100 renders as exactly two digits that read back as the field. */
  lemma Pad2RoundTrip(n: nat)
    requires n < 100
    ensures |Pad2(n)| == 2 && Text.IsDigits(Pad2(n)) && Text.ParseNat(Pad2(n)) == n
  {
    var s := Text.NatToString(n);
    Text.ParseNatToString(n);
    Text.NatToStringLength(n, 2);
    if n < 10 {
      assert Pad2(n) == "0" + s;
      Text.ParseNatLeadingZero(s);
    }
  }

  /** The values a JavaScript `Date` gives for a year written with four digits. */
  predicate Plausible(t: DateTime)
  {
    1000 <= t.year <= 9999 && t.monthIndex < 12 && 1 <= t.day <= 31 &&
    t.hours < 24 && t.minutes < 60 && t.seconds < 60
  }

  /** Regrouping the timestamp's concatenation from the right. */
  lemma Regroup(y: string, mo: string, d: string, h: string, mi: string, se: string)
    ensures y + "_" + mo + "_" + d + "_" + h + "_" + mi + "_" + se ==
      y + ("_" + mo + ("_" + d + ("_" + h + ("_" + mi + ("_" + se)))))
  {
    var r4 := "_" + mi + ("_" + se);
    assert "_" + mi + "_" + se == r4;
    var r3 := "_" + h + r4;
    assert "_" + h + "_" + mi + "_" + se == r3;
    var r2 := "_" + d + r3;
    assert "_" + d + "_" + h + "_" + mi + "_" + se == r2;
    var r1 := "_" + mo + r2;
    assert "_" + mo + "_" + d + "_" + h + "_" + mi + "_" + se == r1;
  }

  /** An underscore, a two-character field and the rest: where each part sits. */
  lemma FieldAt(f: string, rest: string)
    requires |f| == 2
    ensures var w := "_" + f + rest; |w| == 3 + |rest| && w[0] == '_' && w[1..3] == f && w[3..] == rest
  {
  }

  /** Where each field sits in a four-character year followed by five underscored two-character fields. */
  lemma CurrentTimeFields(y: string, mo: string, d: string, h: string, mi: string, se: string)
    requires |y| == 4 && |mo| == 2 && |d| == 2 && |h| == 2 && |mi| == 2 && |se| == 2
    ensures var s := y + ("_" + mo + ("_" + d + ("_" + h + ("_" + mi + ("_" + se)))));
      |s| == 19 &&
      s[4] == '_' && s[7] == '_' && s[10] == '_' && s[13] == '_' && s[16] == '_' &&
      s[0..4] == y && s[5..7] == mo && s[8..10] == d && s[11..13] == h && s[14..16] == mi && s[17..19] == se
  {
    var tail := "_" + se;
    var t4 := "_" + mi + tail;
    var t3 := "_" + h + t4;
    var t2 := "_" + d + t3;
    var t1 := "_" + mo + t2;
    FieldAt(mo, t2);
    FieldAt(d, t3);
    FieldAt(h, t4);
    FieldAt(mi, tail);
    var s := y + t1;
    assert s[..4] == y && s[4..] == t1;
    assert s[5..7] == t1[1..3];
    assert s[7..] == t2;
    assert s[8..10] == t2[1..3];
    assert s[10..] == t3;
    assert s[11..13] == t3[1..3];
    assert s[13..] == t4;
    assert s[14..16] == t4[1..3];
    assert s[16..] == tail;
  }

  /**
    For a four-digit year the timestamp is 19 characters long, underscores sit at
    fixed positions, and every field reads back as the clock value it came from
    (the month one above `getMonth()`).
   */
  lemma CurrentTimeLayout(t: DateTime)
    requires Plausible(t)
    ensures var s := GetCurrentTime(t);
      |s| == 19 &&
      s[4] == '_' && s[7] == '_' && s[10] == '_' && s[13] == '_' && s[16] == '_' &&
      Text.IsDigits(s[0..4]) && Text.ParseNat(s[0..4]) == t.year &&
      Text.IsDigits(s[5..7]) && Text.ParseNat(s[5..7]) == t.monthIndex + 1 &&
      Text.IsDigits(s[8..10]) && Text.ParseNat(s[8..10]) == t.day &&
      Text.IsDigits(s[11..13]) && Text.ParseNat(s[11..13]) == t.hours &&
      Text.IsDigits(s[14..16]) && Text.ParseNat(s[14..16]) == t.minutes &&
      Text.IsDigits(s[17..19]) && Text.ParseNat(s[17..19]) == t.seconds
  {
    var y := Text.NatToString(t.year);
    Text.NatToStringLength(t.year, 4);
    Text.NatToStringLength(t.year, 3);
    Text.ParseNatToString(t.year);
    Pad2RoundTrip(t.monthIndex + 1);
    Pad2RoundTrip(t.day);
    Pad2RoundTrip(t.hours);
    Pad2RoundTrip(t.minutes);
    Pad2RoundTrip(t.seconds);
    Regroup(y, Pad2(t.monthIndex + 1), Pad2(t.day), Pad2(t.hours), Pad2(t.minutes), Pad2(t.seconds));
    CurrentTimeFields(y, Pad2(t.monthIndex + 1), Pad2(t.day), Pad2(t.hours), Pad2(t.minutes), Pad2(t.seconds));
  }

  /**
    `getContentType`: the `content-type` header, or, when that is missing or empty
    (both falsy), whatever `Content-Type` holds, which may itself be missing.
   */
  function GetContentType(headers: map<string, string>): (r: Option<string>)
    ensures r.None? <==>
      ("content-type" !in headers || headers["content-type"] == "") && "Content-Type" !in headers
    ensures "content-type" in headers && headers["content-type"] != "" ==>
      r == Some(headers["content-type"])
    ensures r.Some? && ("content-type" !in headers || headers["content-type"] == "") ==>
      r.value == headers["Content-Type"]
  {
    if "content-type" in headers && headers["content-type"] != "" then Some(headers["content-type"])
    else if "Content-Type" in headers then Some(headers["Content-Type"])
    else None
  }

  const PngDataUrlPrefix := "data:image/png;base64,"

  /**
    The anchored replace in `getImageBuffer`: the PNG data-URL prefix is removed
    once, and only from the very start of the text.
   */
  function StripDataUrlPrefix(data: string): (payload: string)
    ensures PngDataUrlPrefix <= data ==> PngDataUrlPrefix + payload == data
    ensures !(PngDataUrlPrefix <= data) ==> payload == data
  {
    if PngDataUrlPrefix <= data then data[|PngDataUrlPrefix|..] else data
  }

  /** Stripping undoes prefixing, and a second copy of the prefix survives the strip. */
  lemma StripUndoesPrefix(payload: string)
    ensures StripDataUrlPrefix(PngDataUrlPrefix + payload) == payload
    ensures StripDataUrlPrefix(PngDataUrlPrefix + PngDataUrlPrefix + payload) == PngDataUrlPrefix + payload
  {
    assert PngDataUrlPrefix <= PngDataUrlPrefix + payload;
    assert PngDataUrlPrefix <= PngDataUrlPrefix + PngDataUrlPrefix + payload;
  }
}

=== FILE: prompt.dfy ===
/**
  `getAIPrompt` of utils/helpers.js: one weighted pick per layer turned into a
  sentence for the image model, and the picks recorded in the module-level
  `imageAttributes`.
 */
module Prompt {
  import opened Wrappers
  import Text
  import Selector

  /** A layer of the AI flow: a trait name, one weight and one option per choice. */
  datatype PromptLayer = PromptLayer(name: string, probs: seq<real>, options: seq<string>)

  /** `{trait_type, value}`; a value of None is JavaScript's `undefined`. */
  datatype TraitDetail = TraitDetail(traitType: string, value: Option<string>)

  /** The option at the picked index, or `undefined` when the layer has none there. */
  function Chosen(layer: PromptLayer, r: real): Option<string>
  {
    var k := Selector.Pick(layer.probs, r);
    if k < |layer.options| then Some(layer.options[k]) else None
  }

  /** How a template literal renders the chosen value. */
  function Rendered(value: Option<string>): string
  {
    match value
    case Some(v) => v
    case None => "undefined"
  }

  function Head(mainCharacter: string): string
  {
    "Generate an image of " + mainCharacter + " that has "
  }

  /** The text one layer contributes: the chosen option, a space, the layer name. */
  function Segments(layers: seq<PromptLayer>, rs: seq<real>): (segs: seq<string>)
    requires |rs| == |layers|
    ensures |segs| == |layers|
  {
    seq(|layers|, i requires 0 <= i < |layers| => Rendered(Chosen(layers[i], rs[i])) + " " + layers[i].name)
  }

  /** The attribute recorded for each layer, in layer order. */
  function Traits(layers: seq<PromptLayer>, rs: seq<real>): (traits: seq<TraitDetail>)
    requires |rs| == |layers|
    ensures |traits| == |layers|
  {
    seq(|layers|, i requires 0 <= i < |layers| => TraitDetail(layers[i].name, Chosen(layers[i], rs[i])))
  }

  /**
    The prompt and the attributes describe the same picks: each layer's segment is
    its recorded value followed by its recorded trait name.
   */
  lemma SegmentsMatchTraits(layers: seq<PromptLayer>, rs: seq<real>, i: nat)
    requires |rs| == |layers| && i < |layers|
    ensures Segments(layers, rs)[i] == Rendered(Traits(layers, rs)[i].value) + " " + Traits(layers, rs)[i].traitType
  {
  }

  /**
    For a non-empty layer list the prompt is the head, the segments and exactly
    one " and " between each two neighbours.
   */
  lemma {:induction false} PromptLength(mainCharacter: string, layers: seq<PromptLayer>, rs: seq<real>)
    requires |rs| == |layers| && |layers| >= 1
    ensures |Head(mainCharacter) + Text.Join(" and ", Segments(layers, rs))| ==
            |Head(mainCharacter)| + Text.TotalLength(Segments(layers, rs)) + 5 * (|layers| - 1)
  {
    Text.JoinLength(" and ", Segments(layers, rs));
  }

  /** The prompt text after `i` of the `segs` have been written by the loop of `getAIPrompt`. */
  function Sofar(segs: seq<string>, i: nat): string
    requires i <= |segs|
  {
    if i == 0 then ""
    else Text.Join(" and ", segs[..i]) + (if i < |segs| then " and " else "")
  }

  lemma SofarStep(segs: seq<string>, i: nat)
    requires i < |segs|
    ensures Sofar(segs, i + 1) == Sofar(segs, i) + segs[i] + (if i + 1 < |segs| then " and " else "")
  {
    assert segs[..i + 1] == segs[..i] + [segs[i]];
    if i > 0 {
      Text.JoinSnoc(" and ", segs[..i], segs[i]);
    }
  }

  lemma SofarDone(segs: seq<string>)
    ensures Sofar(segs, |segs|) == Text.Join(" and ", segs)
  {
    assert segs[..|segs|] == segs;
  }

  lemma Associate(a: string, b: string, c: string, d: string)
    ensures a + b + c + d == a + (b + c + d)
  {
  }

  /** The module-level `imageAttributes` of utils/helpers.js. */
  class PromptBuilder {
    var imageAttributes: seq<TraitDetail>

    constructor ()
      ensures imageAttributes == []
    {
      imageAttributes := [];
    }

    /**
      `getAIPrompt`: `imageAttributes` is reset, then each layer in order adds its
      segment to the prompt (with " and " after every segment but the last) and its
      attribute to `imageAttributes`. `rs` holds the draw for each layer's pick.
     */
    method GetAIPrompt(layers: seq<PromptLayer>, mainCharacter: string, rs: seq<real>) returns (prompt: string)
      requires |rs| == |layers|
      modifies this
      ensures prompt == Head(mainCharacter) + Text.Join(" and ", Segments(layers, rs))
      ensures imageAttributes == Traits(layers, rs)
    {
      prompt := "Generate an image of " + mainCharacter + " that has ";
      imageAttributes := [];
      ghost var segs := Segments(layers, rs);
      ghost var traits := Traits(layers, rs);
      assert Sofar(segs, 0) == "";
      assert prompt == Head(mainCharacter) + Sofar(segs, 0);
      var index := 0;
      while index < |layers|
        invariant 0 <= index <= |layers|
        invariant imageAttributes == traits[..index]
        invariant prompt == Head(mainCharacter) + Sofar(segs, index)
      {
        var layer := layers[index];
        var optionIndex := Selector.PickElementWithProbs(layer.probs, rs[index]);
        var selectedOption := if optionIndex < |layer.options| then Some(layer.options[optionIndex]) else None;
        var segment := Rendered(selectedOption) + " " + layer.name;
        assert segment == segs[index];
        ghost var tail := if index + 1 < |segs| then " and " else "";
        SofarStep(segs, index);
        ghost var before := prompt;
        prompt := prompt + segment;
        if index != |layers| - 1 {
          prompt := prompt + " and ";
        }
        assert prompt == before + segs[index] + tail;
        Associate(Head(mainCharacter), Sofar(segs, index), segs[index], tail);
        assert traits[index] == TraitDetail(layer.name, selectedOption);
        assert traits[..index + 1] == traits[..index] + [traits[index]];
        imageAttributes := imageAttributes + [TraitDetail(layer.name, selectedOption)];
        index := index + 1;
      }
      SofarDone(segs);
      assert traits[..index] == traits;
    }
  }
}

=== FILE: prototype.dfy ===
/**
  The first prototype, index.js: layers are read from `./layers/<name>`, one
  element per layer is drawn with `floor(random * count)` onto ONE module-level
  canvas, and after every draw the whole canvas is written to `./build/<edition>`.
  The canvas is never cleared between editions.
 */
module Prototype {
  import opened Wrappers
  import Text
  import Catalog
  import Surface

  const LayersDir := "./layers"
  const BuildDir := "./build"

  /** One entry of `layersOrder`: a layer name and its order label. */
  datatype LayerOrder = LayerOrder(name: string, order: string)

  datatype ProtoLayer = ProtoLayer(
    id: nat,
    name: string,
    location: string,
    order: string,
    size: Catalog.Size,
    elements: seq<Catalog.Element>)

  /** `cleanName(str, itr)`: JavaScript's `str.slice(0, itr)`. */
  function CleanName(str: string, itr: int): (name: string)
    ensures itr < 0 && |str| >= -itr ==> name + str[|str| + itr..] == str
    ensures 0 <= itr <= |str| ==> name == str[..itr]
  {
    Text.SliceTo(str, itr)
  }

  /**
    `getElements`: the same records as the later catalog builds, except that ids
    count from 1.
   */
  function GetElements(files: seq<string>): (es: seq<Catalog.Element>)
    ensures |es| == |files|
    ensures forall k :: 0 <= k < |files| ==> es[k] == Catalog.Elements(files)[k].(id := k + 1)
  {
    seq(|files|, k requires 0 <= k < |files| => Catalog.Element(k + 1, CleanName(files[k], -4), files[k]))
  }

  function LayerPath(name: string): string
  {
    LayersDir + "/" + name
  }

  /**
    `layersSetup`: one layer per configured entry, ids from 1. `readdirSync`
    throws on a directory it cannot list, which aborts the whole setup (None).
   */
  function LayersSetup(layersOrder: seq<LayerOrder>, format: Catalog.Size, dirs: map<string, seq<string>>)
    : (r: Option<seq<ProtoLayer>>)
    ensures r.Some? <==> forall k :: 0 <= k < |layersOrder| ==> LayerPath(layersOrder[k].name) in dirs
    ensures r.Some? ==> (|r.value| == |layersOrder| &&
      forall k :: 0 <= k < |layersOrder| ==>
         var path := LayerPath(layersOrder[k].name);
         path in dirs && r.value[k] == ProtoLayer(k + 1, layersOrder[k].name, path, layersOrder[k].order,
                                                  format, GetElements(dirs[path])))
  {
    if forall k :: 0 <= k < |layersOrder| ==> LayerPath(layersOrder[k].name) in dirs then
      Some(seq(|layersOrder|, k requires 0 <= k < |layersOrder| =>
        var entry := layersOrder[k];
        ProtoLayer(k + 1, entry.name, LayerPath(entry.name), entry.order, format,
                   GetElements(dirs[LayerPath(entry.name)]))))
    else None
  }

  /** `Math.floor(Math.random() * count)` for a draw `r`. */
  function PickIndex(r: real, count: nat): int
  {
    (r * count as real).Floor
  }

  /** A draw from [0, 1) picks an existing element of a non-empty layer. */
  lemma PickIndexInRange(r: real, count: nat)
    requires 0.0 <= r < 1.0 && count > 0
    ensures 0 <= PickIndex(r, count) < count
  {
    assert 0.0 <= r * count as real < count as real by {
      assert r * count as real < 1.0 * count as real;
    }
  }

  /** The file one edition is written to. */
  function BuildPath(edition: nat): string
  {
    BuildDir + "/" + Text.NatToString(edition)
  }

  /** Different editions are written to different files. */
  lemma {:induction false} BuildPathInjective(i: nat, j: nat)
    requires BuildPath(i) == BuildPath(j)
    ensures i == j
  {
    var n := |BuildDir + "/"|;
    assert Text.NatToString(i) == BuildPath(i)[n..];
    assert Text.NatToString(j) == BuildPath(j)[n..];
    Text.ParseNatToString(i);
    Text.ParseNatToString(j);
  }

  /** What the prototype leaves behind: the canvas' draws in order and the build files. */
  datatype Sketch = Sketch(painted: seq<string>, build: map<string, seq<string>>)

  /**
    The path `drawLayer` paints for a layer and a draw: its location, "/", and the
    picked element's file; empty when the pick lies outside the layer.
   */
  function PickedPath(layer: ProtoLayer, r: real): string
  {
    var k := PickIndex(r, |layer.elements|);
    if 0 <= k < |layer.elements| then layer.location + "/" + layer.elements[k].fileName else ""
  }

  /**
    `drawLayer`: the picked element's image is drawn onto the shared canvas and the
    canvas, with everything on it so far, is written to this edition's file. A pick
    outside the layer (an empty layer) throws before drawing: nothing changes.
   */
  function LayerDrawn(s: Sketch, layer: ProtoLayer, edition: nat, r: real): (s': Sketch)
    ensures !(0 <= PickIndex(r, |layer.elements|) < |layer.elements|) ==> s' == s
  {
    var k := PickIndex(r, |layer.elements|);
    if 0 <= k < |layer.elements| then
      var painted := s.painted + [PickedPath(layer, r)];
      Sketch(painted, s.build[BuildPath(edition) := painted])
    else s
  }

  /** One edition: every layer drawn in configuration order with its own draw. */
  function EditionDrawn(s: Sketch, layers: seq<ProtoLayer>, edition: nat, rs: seq<real>): Sketch
    requires |rs| == |layers|
    decreases |layers|
  {
    if |layers| == 0 then s
    else
      var n := |layers| - 1;
      LayerDrawn(EditionDrawn(s, layers[..n], edition, rs[..n]), layers[n], edition, rs[n])
  }

  /** Editions 0, 1, ... in turn; `rounds[i]` holds edition i's draws. */
  function AllDrawn(s: Sketch, layers: seq<ProtoLayer>, rounds: seq<seq<real>>): Sketch
    requires forall i :: 0 <= i < |rounds| ==> |rounds[i]| == |layers|
    decreases |rounds|
  {
    if |rounds| == 0 then s
    else
      var n := |rounds| - 1;
      EditionDrawn(AllDrawn(s, layers, rounds[..n]), layers, n, rounds[n])
  }

  /** Every layer has elements and every draw lies in [0, 1), as `Math.random` does. */
  predicate Drawable(layers: seq<ProtoLayer>, rs: seq<real>)
  {
    |rs| == |layers| &&
    forall k :: 0 <= k < |layers| ==> 0.0 <= rs[k] < 1.0 && |layers[k].elements| > 0
  }

  /**
    An edition adds one image per layer on top of what the canvas held, and leaves
    this edition's file holding the whole canvas; no other file changes.
   */
  lemma {:induction false} EditionDrawnAppends(s: Sketch, layers: seq<ProtoLayer>, edition: nat, rs: seq<real>)
    requires Drawable(layers, rs)
    ensures var e := EditionDrawn(s, layers, edition, rs);
      |e.painted| == |s.painted| + |layers| && e.painted[..|s.painted|] == s.painted &&
      (|layers| > 0 ==> e.build == s.build[BuildPath(edition) := e.painted]) &&
      (|layers| == 0 ==> e.build == s.build)
  {
    if |layers| > 0 {
      var n := |layers| - 1;
      assert Drawable(layers[..n], rs[..n]);
      EditionDrawnAppends(s, layers[..n], edition, rs[..n]);
      PickIndexInRange(rs[n], |layers[n].elements|);
      var mid := EditionDrawn(s, layers[..n], edition, rs[..n]);
      assert EditionDrawn(s, layers, edition, rs) == LayerDrawn(mid, layers[n], edition, rs[n]);
      assert mid.painted[..|s.painted|] == s.painted;
    }
  }

  /** Image k that an edition adds to the canvas is layer k's own pick, in configuration order. */
  lemma {:induction false} EditionDrawnContents(s: Sketch, layers: seq<ProtoLayer>, edition: nat, rs: seq<real>, k: nat)
    requires Drawable(layers, rs) && k < |layers|
    ensures var e := EditionDrawn(s, layers, edition, rs);
      |s.painted| + k < |e.painted| && e.painted[|s.painted| + k] == PickedPath(layers[k], rs[k])
  {
    var n := |layers| - 1;
    assert Drawable(layers[..n], rs[..n]);
    EditionDrawnAppends(s, layers[..n], edition, rs[..n]);
    PickIndexInRange(rs[n], |layers[n].elements|);
    var mid := EditionDrawn(s, layers[..n], edition, rs[..n]);
    var e := EditionDrawn(s, layers, edition, rs);
    assert e == LayerDrawn(mid, layers[n], edition, rs[n]);
    assert e.painted == mid.painted + [PickedPath(layers[n], rs[n])];
    if k < n {
      EditionDrawnContents(s, layers[..n], edition, rs[..n], k);
      assert layers[..n][k] == layers[k] && rs[..n][k] == rs[k];
    }
  }

  lemma MulStep(a: nat, b: nat)
    ensures (a + 1) * b == a * b + b
  {
  }

  /** Every edition adds one image per layer to the canvas and erases none. */
  lemma {:induction false} AllDrawnGrows(s: Sketch, layers: seq<ProtoLayer>, rounds: seq<seq<real>>)
    requires forall i :: 0 <= i < |rounds| ==> Drawable(layers, rounds[i])
    ensures forall i :: 0 <= i < |rounds| ==> |rounds[i]| == |layers|
    ensures var f := AllDrawn(s, layers, rounds);
      |f.painted| == |s.painted| + |rounds| * |layers| && f.painted[..|s.painted|] == s.painted
  {
    if |rounds| > 0 {
      var n := |rounds| - 1;
      var prefix := rounds[..n];
      assert forall i :: 0 <= i < |prefix| ==> Drawable(layers, prefix[i]);
      AllDrawnGrows(s, layers, prefix);
      var mid := AllDrawn(s, layers, prefix);
      EditionDrawnAppends(mid, layers, n, rounds[n]);
      MulStep(n, |layers|);
      assert AllDrawn(s, layers, rounds).painted[..|mid.painted|] == mid.painted;
    }
  }

  /** The last edition's images sit on top of everything the earlier editions drew. */
  lemma AllDrawnLastEdition(s: Sketch, layers: seq<ProtoLayer>, rounds: seq<seq<real>>, k: nat)
    requires forall e :: 0 <= e < |rounds| ==> Drawable(layers, rounds[e])
    requires 0 < |rounds| && k < |layers|
    ensures forall e :: 0 <= e < |rounds| ==> |rounds[e]| == |layers|
    ensures var i := |rounds| - 1; var f := AllDrawn(s, layers, rounds);
      |s.painted| + i * |layers| + k < |f.painted| &&
      f.painted[|s.painted| + i * |layers| + k] == PickedPath(layers[k], rounds[i][k])
  {
    var n := |rounds| - 1;
    var prefix := rounds[..n];
    assert forall e :: 0 <= e < |prefix| ==> Drawable(layers, prefix[e]);
    var mid := AllDrawn(s, layers, prefix);
    assert AllDrawn(s, layers, rounds) == EditionDrawn(mid, layers, n, rounds[n]);
    AllDrawnGrows(s, layers, prefix);
    EditionDrawnContents(mid, layers, n, rounds[n], k);
  }

  /** The last edition draws over the earlier ones and leaves their images in place. */
  lemma AllDrawnKeepsEarlier(s: Sketch, layers: seq<ProtoLayer>, rounds: seq<seq<real>>, idx: nat)
    requires forall e :: 0 <= e < |rounds| ==> Drawable(layers, rounds[e])
    requires 0 < |rounds| && forall e :: 0 <= e < |rounds| ==> |rounds[e]| == |layers|
    requires idx < |AllDrawn(s, layers, rounds[..|rounds| - 1]).painted|
    ensures var f := AllDrawn(s, layers, rounds);
      idx < |f.painted| && f.painted[idx] == AllDrawn(s, layers, rounds[..|rounds| - 1]).painted[idx]
  {
    var n := |rounds| - 1;
    var mid := AllDrawn(s, layers, rounds[..n]);
    var f := AllDrawn(s, layers, rounds);
    assert f == EditionDrawn(mid, layers, n, rounds[n]);
    EditionDrawnAppends(mid, layers, n, rounds[n]);
    assert f.painted[..|mid.painted|] == mid.painted;
  }

  /** Image k of edition i on the final canvas is layer k's pick from edition i's draws. */
  lemma {:induction false} AllDrawnContents(s: Sketch, layers: seq<ProtoLayer>, rounds: seq<seq<real>>, i: nat, k: nat)
    requires forall e :: 0 <= e < |rounds| ==> Drawable(layers, rounds[e])
    requires i < |rounds| && k < |layers|
    ensures forall e :: 0 <= e < |rounds| ==> |rounds[e]| == |layers|
    ensures var f := AllDrawn(s, layers, rounds);
      |s.painted| + i * |layers| + k < |f.painted| &&
      f.painted[|s.painted| + i * |layers| + k] == PickedPath(layers[k], rounds[i][k])
  {
    var n := |rounds| - 1;
    if i < n {
      var prefix := rounds[..n];
      assert forall e :: 0 <= e < |prefix| ==> Drawable(layers, prefix[e]);
      AllDrawnContents(s, layers, prefix, i, k);
      assert prefix[i] == rounds[i];
      AllDrawnKeepsEarlier(s, layers, rounds, |s.painted| + i * |layers| + k);
    } else {
      AllDrawnLastEdition(s, layers, rounds, k);
    }
  }

  /**
    The canvas is never cleared: edition i's file holds everything drawn in editions
    0 through i, i.e. the images of every earlier edition beneath its own, and is a
    prefix of the final canvas.
   */
  lemma {:induction false} AllDrawnNeverClears(s: Sketch, layers: seq<ProtoLayer>, rounds: seq<seq<real>>, i: nat)
    requires forall e :: 0 <= e < |rounds| ==> Drawable(layers, rounds[e])
    requires |layers| > 0 && i < |rounds|
    ensures forall e :: 0 <= e < |rounds| ==> |rounds[e]| == |layers|
    ensures var f := AllDrawn(s, layers, rounds);
      BuildPath(i) in f.build && |f.build[BuildPath(i)]| == |s.painted| + (i + 1) * |layers| &&
      |f.build[BuildPath(i)]| <= |f.painted| && f.build[BuildPath(i)] == f.painted[..|f.build[BuildPath(i)]|]
  {
    var n := |rounds| - 1;
    var prefix := rounds[..n];
    assert forall e :: 0 <= e < |prefix| ==> Drawable(layers, prefix[e]);
    var mid := AllDrawn(s, layers, prefix);
    var f := AllDrawn(s, layers, rounds);
    assert f == EditionDrawn(mid, layers, n, rounds[n]);
    EditionDrawnAppends(mid, layers, n, rounds[n]);
    assert f.painted[..|mid.painted|] == mid.painted;
    if i < n {
      AllDrawnNeverClears(s, layers, prefix, i);
      if BuildPath(i) == BuildPath(n) {
        BuildPathInjective(i, n);
      }
      assert f.build[BuildPath(i)] == mid.build[BuildPath(i)];
      assert |mid.build[BuildPath(i)]| <= |mid.painted|;
    } else {
      AllDrawnGrows(s, layers, prefix);
      assert f.build[BuildPath(i)] == f.painted;
      MulStep(n, |layers|);
    }
  }

  /** The module state of index.js: the one canvas and the build directory. */
  class Studio {
    const canvas: Surface.Canvas
    var build: map<string, seq<string>>

    constructor ()
      ensures fresh(canvas) && canvas.painted == [] && build == map[]
    {
      canvas := new Surface.Canvas();
      build := map[];
    }

    function Snapshot(): Sketch
      reads this, canvas
    {
      Sketch(canvas.painted, build)
    }

    /** `drawLayer(layer, edition)` with the draw `r` in place of `Math.random()`. */
    method DrawLayer(layer: ProtoLayer, edition: nat, r: real)
      modifies this, canvas
      ensures Snapshot() == LayerDrawn(old(Snapshot()), layer, edition, r)
    {
      var selected := PickIndex(r, |layer.elements|);
      if 0 <= selected < |layer.elements| {
        var element := layer.elements[selected];
        canvas.Paint(layer.location + "/" + element.fileName);
        build := build[BuildPath(edition) := canvas.painted];
      }
    }

    /**
      `stackImagesLayers(edition)`: sets up the layers, then draws every layer of
      every edition 0 .. edition - 1, with `rounds[i]` as edition i's draws. A setup
      that fails draws nothing.
     */
    method StackImagesLayers(edition: int, layersOrder: seq<LayerOrder>, format: Catalog.Size,
                             dirs: map<string, seq<string>>, rounds: seq<seq<real>>)
      requires |rounds| == (if edition > 0 then edition else 0)
      requires forall i :: 0 <= i < |rounds| ==> |rounds[i]| == |layersOrder|
      modifies this, canvas
      ensures LayersSetup(layersOrder, format, dirs).None? ==> Snapshot() == old(Snapshot())
      ensures LayersSetup(layersOrder, format, dirs).Some? ==>
        Snapshot() == AllDrawn(old(Snapshot()), LayersSetup(layersOrder, format, dirs).value, rounds)
    {
      var setup := LayersSetup(layersOrder, format, dirs);
      if setup.None? {
        return;
      }
      var layers := setup.value;
      ghost var start := Snapshot();
      var i := 0;
      while i < edition
        invariant 0 <= i <= |rounds|
        invariant Snapshot() == AllDrawn(start, layers, rounds[..i])
      {
        ghost var before := Snapshot();
        var index := 0;
        while index < |layers|
          invariant 0 <= index <= |layers|
          invariant Snapshot() == EditionDrawn(before, layers[..index], i, rounds[i][..index])
        {
          DrawLayer(layers[index], i, rounds[i][index]);
          index := index + 1;
          assert layers[..index][..index - 1] == layers[..index - 1];
          assert rounds[i][..index][..index - 1] == rounds[i][..index - 1];
        }
        assert layers[..index] == layers && rounds[i][..index] == rounds[i];
        assert rounds[..i + 1][..i] == rounds[..i];
        i := i + 1;
      }
      assert rounds[..i] == rounds;
    }
  }
}

=== FILE: selector.dfy ===
/**
  Weighted selection (`pickElementWithProbs` in utils/helpers.js): the first index
  whose running sum of weights exceeds a uniform draw `r`, or 0 when there is none.
  The draw is a parameter and the weights are exact reals.
 */
module Selector {

  /** The sum of a sequence of weights, added from the left as the loop does. */
  function Sum(p: seq<real>): real
  {
    if |p| == 0 then 0.0 else Sum(p[..|p| - 1]) + p[|p| - 1]
  }

  /** The running sum after index i exceeds the draw. */
  predicate Hits(p: seq<real>, r: real, i: nat)
  {
    i < |p| && r < Sum(p[..i + 1])
  }

  /** The least hitting index at or after k, or 0 when none from k on hits. */
  function PickFrom(p: seq<real>, r: real, k: nat): (i: nat)
    requires k <= |p|
    ensures (exists m :: k <= m < |p| && Hits(p, r, m)) ==>
              k <= i && Hits(p, r, i) && forall m :: k <= m < i ==> !Hits(p, r, m)
    ensures (forall m :: k <= m < |p| ==> !Hits(p, r, m)) ==> i == 0
    decreases |p| - k
  {
    if k == |p| then 0
    else if r < Sum(p[..k + 1]) then assert Hits(p, r, k); k
    else PickFrom(p, r, k + 1)
  }

  /** The index `pickElementWithProbs(p)` returns for the draw r. */
  function Pick(p: seq<real>, r: real): (i: nat)
  {
    PickFrom(p, r, 0)
  }

  /**
    `pickElementWithProbs`: accumulates the weights in order and returns as soon as
    the draw lies below the running sum; falls back to 0 after the last weight.
   */
  method PickElementWithProbs(probs: seq<real>, r: real) returns (i: nat)
    ensures i == Pick(probs, r)
    ensures i == 0 || i < |probs|
  {
    var cumulative := 0.0;
    var k := 0;
    while k < |probs|
      invariant 0 <= k <= |probs|
      invariant cumulative == Sum(probs[..k])
      invariant forall m :: 0 <= m < k ==> !Hits(probs, r, m)
    {
      assert probs[..k + 1][..k] == probs[..k];
      cumulative := cumulative + probs[k];
      if r < cumulative {
        assert Hits(probs, r, k);
        return k;
      }
      k := k + 1;
    }
    return 0;
  }

  /** The pick is the least hitting index, and it is 0 exactly when no index hits or index 0 does. */
  lemma PickIsLeastHit(p: seq<real>, r: real)
    ensures (exists m :: 0 <= m < |p| && Hits(p, r, m)) <==> Hits(p, r, Pick(p, r))
    ensures forall m :: 0 <= m < Pick(p, r) ==> !Hits(p, r, m)
  {
  }

  predicate NonNegative(p: seq<real>)
  {
    forall i :: 0 <= i < |p| ==> 0.0 <= p[i]
  }

  /** With non-negative weights every running sum is at most the total. */
  lemma {:induction false} PrefixSumAtMostTotal(p: seq<real>, n: nat)
    requires NonNegative(p) && n <= |p|
    ensures Sum(p[..n]) <= Sum(p)
    decreases |p|
  {
    if n < |p| {
      var q := p[..|p| - 1];
      assert q[..n] == p[..n];
      PrefixSumAtMostTotal(q, n);
      assert p[..|p|] == p;
    } else {
      assert p[..n] == p;
    }
  }

  /**
    Under-summed weights: when the draw is at least the total of non-negative weights,
    no running sum exceeds it and the pick falls back to index 0.
   */
  lemma {:induction false} PickUnderSumFallsBack(p: seq<real>, r: real)
    requires NonNegative(p) && Sum(p) <= r
    ensures Pick(p, r) == 0
  {
    forall m | 0 <= m < |p| ensures !Hits(p, r, m) {
      PrefixSumAtMostTotal(p, m + 1);
    }
  }

  /** Weights [0, 1] always pick index 1 for a draw in [0, 1). */
  lemma PickZeroOne(r: real)
    requires 0.0 <= r < 1.0
    ensures Pick([0.0, 1.0], r) == 1
  {
    var p := [0.0, 1.0];
    assert p[..1] == [0.0] && [0.0][..0] == [];
    assert p[..2] == p && p[..1] == p[..2][..1];
    assert !Hits(p, r, 0) && Hits(p, r, 1);
  }

  /** Weights [1, 0] always pick index 0 for a draw in [0, 1). */
  lemma PickOneZero(r: real)
    requires 0.0 <= r < 1.0
    ensures Pick([1.0, 0.0], r) == 0
  {
    var p := [1.0, 0.0];
    assert p[..1] == [1.0] && [1.0][..0] == [];
    assert Hits(p, r, 0);
  }

  /** No weights at all: the pick is 0 whatever the draw. */
  lemma PickEmpty(r: real)
    ensures Pick([], r) == 0
  {
  }
}

=== FILE: surface.dfy ===
/**
  An image surface (a Jimp image or a node-canvas context), seen only through what
  matters to the generator: the element files painted on it, in painting order.
  Each path stands for one full-size composite at the origin; the last path painted
  is the one on top.
 */
module Surface {

  class Canvas {
    var painted: seq<string>

    /** A blank surface. */
    constructor ()
      ensures painted == []
    {
      painted := [];
    }

    /** Composites one element image over everything painted so far. */
    method Paint(path: string)
      modifies this
      ensures painted == old(painted) + [path]
    {
      painted := painted + [path];
    }
  }
}

=== FILE: text.dfy ===
/**
  The few JavaScript string operations the generator relies on: number-to-string
  conversion, `padStart`, `Array.prototype.join` and `String.prototype.slice(0, end)`.
 */
module Text {

  predicate IsDigit(c: char) {
    '0' <= c <= '9'
  }

  predicate IsDigits(s: string) {
    forall i :: 0 <= i < |s| ==> IsDigit(s[i])
  }

  function DigitChar(d: nat): (c: char)
    requires d < 10
    ensures IsDigit(c) && c as int - '0' as int == d
  {
    ('0' as int + d) as char
  }

  /** Decimal rendering of a non-negative number, as `Number.prototype.toString()` gives it. */
  function NatToString(n: nat): (s: string)
    ensures 1 <= |s| && IsDigits(s)
    ensures n < 10 <==> |s| == 1
  {
    if n < 10 then [DigitChar(n)] else NatToString(n / 10) + [DigitChar(n % 10)]
  }

  /** Decimal rendering of any integer: a minus sign in front of a negative one. */
  function IntToString(i: int): (s: string)
    ensures i >= 0 ==> s == NatToString(i)
    ensures i < 0 ==> |s| >= 2 && s[0] == '-' && s[1..] == NatToString(-i)
  {
    if i < 0 then "-" + NatToString(-i) else NatToString(i)
  }

  /** The value of a string of decimal digits (the inverse of NatToString). */
  function ParseNat(s: string): nat
    requires IsDigits(s)
  {
    if |s| == 0 then 0 else 10 * ParseNat(s[..|s| - 1]) + (s[|s| - 1] as int - '0' as int)
  }

  lemma {:induction false} ParseNatToString(n: nat)
    ensures ParseNat(NatToString(n)) == n
  {
    var s := NatToString(n);
    if n >= 10 {
      ParseNatToString(n / 10);
      assert s[..|s| - 1] == NatToString(n / 10);
    }
  }

  /** A leading zero does not change the value. */
  lemma ParseNatLeadingZero(s: string)
    requires IsDigits(s)
    ensures IsDigits("0" + s) && ParseNat("0" + s) == ParseNat(s)
    decreases |s|
  {
    if |s| > 0 {
      assert ("0" + s)[..|"0" + s| - 1] == "0" + s[..|s| - 1];
      ParseNatLeadingZero(s[..|s| - 1]);
    }
  }

  lemma {:induction false} NatToStringLength(n: nat, k: nat)
    requires 1 <= k
    ensures |NatToString(n)| <= k <==> n < Pow10(k)
  {
    if n >= 10 && k > 1 {
      NatToStringLength(n / 10, k - 1);
    }
  }

  function Pow10(k: nat): (p: nat)
    ensures p >= 1
  {
    if k == 0 then 1 else 10 * Pow10(k - 1)
  }

  function Repeat(c: char, n: nat): (s: string)
    ensures |s| == n && forall i :: 0 <= i < n ==> s[i] == c
  {
    if n == 0 then [] else [c] + Repeat(c, n - 1)
  }

  /** `s.padStart(len, c)`: `c` repeated in front of `s` until it is `len` long; a longer `s` is kept. */
  function PadStart(s: string, len: nat, c: char): (r: string)
    ensures |s| >= len ==> r == s
    ensures |s| < len ==> |r| == len
    ensures r[|r| - |s|..] == s
    ensures forall i :: 0 <= i < |r| - |s| ==> r[i] == c
  {
    if |s| >= len then s else Repeat(c, len - |s|) + s
  }

  /** `parts.join(sep)`: the parts in order, `sep` between neighbours, none at either end. */
  function Join(sep: string, parts: seq<string>): string
  {
    if |parts| == 0 then ""
    else if |parts| == 1 then parts[0]
    else Join(sep, parts[..|parts| - 1]) + sep + parts[|parts| - 1]
  }

  function TotalLength(parts: seq<string>): nat
  {
    if |parts| == 0 then 0 else TotalLength(parts[..|parts| - 1]) + |parts[|parts| - 1]|
  }

  /** Dropping parts from the end never makes the total longer. */
  lemma {:induction false} TotalLengthPrefix(parts: seq<string>, n: nat)
    requires n <= |parts|
    ensures TotalLength(parts[..n]) <= TotalLength(parts)
    decreases |parts|
  {
    if n < |parts| {
      var init := parts[..|parts| - 1];
      assert init[..n] == parts[..n];
      TotalLengthPrefix(init, n);
    } else {
      assert parts[..n] == parts;
    }
  }

  /** A join of n parts holds exactly n - 1 separators besides the parts themselves. */
  lemma {:induction false} JoinLength(sep: string, parts: seq<string>)
    requires |parts| >= 1
    ensures |Join(sep, parts)| == TotalLength(parts) + (|parts| - 1) * |sep|
  {
    if |parts| > 1 {
      JoinLength(sep, parts[..|parts| - 1]);
      assert TotalLength(parts[..|parts| - 1][..|parts| - 2]) == TotalLength(parts[..|parts| - 2]) by {
        assert parts[..|parts| - 1][..|parts| - 2] == parts[..|parts| - 2];
      }
    } else {
      assert parts[..0] == [];
    }
  }

  /** Appending a part to a non-empty join adds one separator and the part. */
  lemma JoinSnoc(sep: string, parts: seq<string>, p: string)
    requires |parts| >= 1
    ensures Join(sep, parts + [p]) == Join(sep, parts) + sep + p
  {
    assert (parts + [p])[..|parts|] == parts;
  }

  /** The decimal rendering of every number, in order (what `join` and `toString` see). */
  function Decimals(xs: seq<nat>): (r: seq<string>)
    ensures |r| == |xs| && forall i :: 0 <= i < |xs| ==> r[i] == NatToString(xs[i])
  {
    seq(|xs|, i requires 0 <= i < |xs| => NatToString(xs[i]))
  }

  /**
    `s.slice(0, end)`: a negative end counts from the back of the string, and an end
    past either edge is clamped to it.
   */
  function SliceTo(s: string, end: int): (r: string)
    ensures end >= 0 ==> |r| == (if end <= |s| then end else |s|)
    ensures end < 0 ==> |r| == (if |s| + end >= 0 then |s| + end else 0)
    ensures r == s[..|r|]
  {
    var stop := if end < 0 then |s| + end else end;
    if stop <= 0 then "" else if stop >= |s| then s else s[..stop]
  }
}

=== FILE: wrappers.dfy ===
/** Option and Result, for the source's `undefined` values and thrown errors. */
module Wrappers {
  datatype Option<+T> = None | Some(value: T)

  datatype Result<+T, +E> = Ok(value: T) | Err(error: E)
}
